=== FILE: README.md ===
# Replacement-data export, modelled in Dafny

`FetchReplacementData.py` exports "replacement" service requests from a Freshservice
helpdesk to a CSV file. At start-up it merges the operator's answers into the stored
preferences. It then writes a header row whose width depends on the AI switch, and walks
ticket pages 1 to 300. On each page it keeps the tickets of type "Service Request" and asks
each one for its requested items. A ticket whose first item is catalogue item 47 is a
replacement: its custom fields, creation time and category triple go into twelve parallel
lists. The lists are then zipped into rows. Each row's description is put on one line, an AI
rephrasing is added when AI is on. A row the file's encoding rejects is rewritten once as a
12-cell fallback row: the first eleven cells, then the whole rendered line with its first
rejected character replaced by a space; the description and AI cells are dropped.

The model keeps that pipeline and replaces everything outside it with parameters.

- The helpdesk is a function from the request number to a response (status plus parsed JSON
  or a parse failure). The run keeps the log of the requests it sends, so properties such
  as "pages 1..300 in order" are stated on that log.
- The output file is the sequence of rows handed to `writerow`. How a row renders as a CSV
  line and which characters the file's encoding accepts are a `Sink` parameter. The AI
  rephraser is a function parameter.
- Python's exceptions are values. A JSON parse failure and the CSV block's
  `except Exception` handler end the run with `exit()`; any other exception that ends the
  run escapes uncaught. Each of the three is a distinct way the run can stop. The ticket
  loop's IndexError and the CSV block's UnicodeEncodeError are caught and do not end it.

Modules:

- `PyJson` (`json.dfy`): JSON values and the Python operations applied to them.
- `Preferences` (`preferences.dfy`): the answer merge.
- `Pagination` (`pages.dfy`): the page list and the service-request filter.
- `Api` (`api.dfy`): requests, responses and the request log.
- `Tickets` (`tickets.dfy`): the ticket loop and its twelve lists.
- `LineText` (`text.dfy`): `splitlines`/`join` and the character splice.
- `CsvExport` (`export.dfy`): header, rows, the page loop and the top level.

Behaviour the script does not have, and that the model therefore does not have either:

- There is no retry or cooldown on a non-200 response.
- There is no early stop after a run of empty pages. All 300 pages are requested unless the
  run stops.
- There is no serial-number or warranty lookup.
- The header has 12 columns, or 13 with AI.
- A page answered with a status other than 200 does not reset `data`. The page loop then
  iterates whatever `data` last held: the previous page's tickets, or the first requested
  item of the last ticket whose `[0]` succeeded, since the ticket loop reuses that variable.
  On page 1, where `data` has never been assigned, this raises UnboundLocalError.

## Model

| member | source | states |
|---|---|---|
| `Preferences.MergeAnswers` | FetchReplacementData.py:35-41 | Each question key ends up holding the stored answer when one existed and nothing was typed, and the typed answer otherwise (even an empty one for a new key); every other key is untouched |
| `Pagination.RemoveFirst` | FetchReplacementData.py:135 | `list.remove` succeeds exactly when the value occurs, dropping only its first occurrence; otherwise ValueError |
| `Pagination.PageList` | FetchReplacementData.py:130-135 | The page list is exactly 1, 2, ..., 300, the pages `PageNumbers` lists |
| `Pagination.PageNumbers` | FetchReplacementData.py:130-135 | The n pages are 1, 2, ..., n in order |
| `Pagination.ServiceRequests` | FetchReplacementData.py:164-165 | The selection keeps only dict tickets whose type is "Service Request" and is no longer than the page |
| `Pagination.ServiceRequestsAppend` | FetchReplacementData.py:164-166 | Filtering a concatenation is the concatenation of the filtered parts, so the selection keeps the page's order |
| `Pagination.ServiceRequestsMembers` | FetchReplacementData.py:164-166 | A ticket is selected if and only if it is on the page and is a dict whose type is "Service Request" |
| `Pagination.CollectServiceRequestIds` | FetchReplacementData.py:163-166 | On a list, the ids are exactly the `id` of each selected ticket in page order, or KeyError when a selected ticket has none; a dict or string yields no ids; any other value raises TypeError; the result is the specification `ServiceRequestIds` |
| `Pagination.PageCandidates` | FetchReplacementData.py:149-166 | An unparseable 200 answer ends the run through the decode handler; a parsed 200 answer succeeds if and only if it has `tickets` and the ids can be collected from it, and otherwise raises that step's exception uncaught; on success a 200 answer's `data` is its `tickets` value, another status keeps the earlier `data`, and the ids are the service-request ids of that `data` |
| `Pagination.PageOfNoTickets` | FetchReplacementData.py:153-166 | A 200 page whose `tickets` is a dict or a string examines no ticket and the run goes on with `data` holding that value |
| `Pagination.PageOfTickets` | FetchReplacementData.py:153-166 | For a 200 page whose `tickets` is a list, `data` becomes that list and the page succeeds exactly when every selected ticket has an id; the ids examined are then those of the selected tickets in list order, and otherwise the run ends with KeyError |
| `Pagination.StalePage` | FetchReplacementData.py:153-166 | A non-200 page raises UnboundLocalError when `data` was never assigned, and otherwise yields the ids of what `data` last held, or the exception collecting them raises |
| `Pagination.PageServiceRequests` | FetchReplacementData.py:149-166 | The imperative reading of a page's ticket list gives exactly `PageCandidates` |
| `PyJson.Subscript` | FetchReplacementData.py:155 | `j[key]` succeeds exactly on a dict holding the key; KeyError for a dict without it, TypeError for any other value |
| `PyJson.Get` | FetchReplacementData.py:199-200 | `dict.get` yields the stored value or the default; a non-dict raises AttributeError |
| `PyJson.First` | FetchReplacementData.py:197 | `[0]` raises IndexError exactly on an empty list or string, and yields the first element of a non-empty list |
| `PyJson.Str` | FetchReplacementData.py:206 | `str` of a string is the string itself and of a non-negative integer its decimal digits |
| `PyJson.DecimalValue` | FetchReplacementData.py:206 | Reading back the decimal digits `str` writes gives the number |
| `PyJson.StrInt` | FetchReplacementData.py:206 | `str` of an integer is a minus sign followed by the digits of its magnitude exactly when it is negative, and its digits otherwise |
| `PyJson.StrIntInjective` | FetchReplacementData.py:206 | Two integer ids with the same `str` are equal, so an SR number names one ticket |
| `Tickets.ExamineItems` | FetchReplacementData.py:194-211 | A non-200 requested-items response leaves the ticket unexamined; an unparseable 200 response ends the run |
| `Tickets.ExamineItemsVerdicts` | FetchReplacementData.py:194-234 | The verdict is "replacement" if and only if the response is 200 with a non-empty item list whose first item has `service_item_id` 47 and whose `custom_fields`, when present, is a dict; "skip" if and only if the list is empty; "other item" if and only if the first item is a dict for another id; "unavailable" if and only if the status is not 200; any other 200 response ends the run, uncaught unless it does not parse; a verdict on an item names the list's first item |
| `Tickets.Categories` | FetchReplacementData.py:212-221 | A non-200 ticket-detail response gives three empty strings; a 200 one succeeds exactly when its ticket has the three keys, giving their values, and ends the run when unparseable |
| `Tickets.StepRecords` | FetchReplacementData.py:199-211 | One ticket adds at most one record and one accepted id, keeps the earlier ones, and the new record's SR number is `str` of that ticket's id |
| `Tickets.StepAccepts` | FetchReplacementData.py:194-234 | A ticket adds a record if and only if its requested items are accepted and its detail can be read; a non-200 detail gives empty categories; a non-200, empty or other-item response adds nothing and does not stop the loop; any other 200 response stops the loop, through the decode handler when unparseable and uncaught otherwise |
| `Tickets.ScanStaysHalted` | FetchReplacementData.py:227-231 | Once the loop has exited, the remaining tickets change nothing |
| `Tickets.ScanSendsNoPages` | FetchReplacementData.py:189-238 | The ticket loop only extends the request log, and never with a page request |
| `Tickets.ScanRecordsMatchAccepted` | FetchReplacementData.py:189-221 | Records and accepted ids have equal length, at most the number of candidates; every accepted id is a candidate; record k carries `str` of the k-th accepted id |
| `Tickets.HoldsAppend` | FetchReplacementData.py:201-221 | Appending one value to each of the twelve lists keeps them the same length and holding exactly the records so far plus the new one |
| `Tickets.StepAcceptedIds` | FetchReplacementData.py:199-221 | One ticket either accepts nothing and adds no accepted ticket-detail request to the log, or is accepted and adds exactly one accepted ticket-detail request for its id |
| `Tickets.ScanAcceptedIds` | FetchReplacementData.py:189-238 | The ids a page accepts, in order, are exactly the ticket-detail requests with a readable answer that the page adds to the log, whether or not the loop finishes |
| `Tickets.Columns.ZipLength` | FetchReplacementData.py:254 | `zip` yields as many tuples as the shortest list, which is the common length when the lists are aligned, and every list has each of those indices |
| `Tickets.Columns.Zip` | FetchReplacementData.py:254 | Tuple k of the zip is the k-th element of every list, in the column order of the row |
| `Tickets.VisitTicket` | FetchReplacementData.py:194-238 | One ticket's requests, exit and appended values are those of the specification step `Step` |
| `Tickets.ExtractPage` | FetchReplacementData.py:172-238 | The loop sends the requests of the ticket-loop specification `Scan`, stops exactly when it does, and on completion its twelve lists hold exactly `Scan`'s records; it sends no page request |
| `LineText.SplitLines` | FetchReplacementData.py:255 | No line from `splitlines` contains a break, and only empty text has no lines |
| `LineText.OneLineIsCollapsedBreaks` | FetchReplacementData.py:255 | `' '.join(s.splitlines())` equals the text with a break at its very end dropped and every other break ("\r\n" counting once) replaced by one space |
| `LineText.OneLineHasNoBreaks` | FetchReplacementData.py:255 | The written description contains no line-break character |
| `LineText.OneLineKeepsSingleLine` | FetchReplacementData.py:255 | A description without breaks is written unchanged |
| `LineText.Splice` | FetchReplacementData.py:268 | The cleaned string has the original's length, a space at the failing index and the original character everywhere else |
| `CsvExport.Header` | FetchReplacementData.py:110-113 | The header has 13 columns with AI and 12 without, the first twelve being the fixed column names |
| `CsvExport.HeaderRow` | FetchReplacementData.py:111-113 | The header row holds exactly the header's names |
| `CsvExport.CreateCsvFile` | FetchReplacementData.py:103-113 | A new file holds exactly the header row, 13 wide with AI and 12 without |
| `CsvExport.FirstUnencodable` | FetchReplacementData.py:264-266 | The failing index is the first character the encoding rejects, and there is none exactly when the whole line encodes |
| `CsvExport.WriteRow` | FetchReplacementData.py:257-269 | A write either ends with the handler's exit or writes a row that starts with the given cells and is either the full row or the cells and one more |
| `CsvExport.WriteRowEncodes` | FetchReplacementData.py:257-269 | A row whose line encodes is written as is. Otherwise the fallback row (the cells, then the line with its first unencodable character replaced by a space) is written when it encodes, and the run exits exactly when it does not. Whatever is written encodes |
| `CsvExport.DescriptionCells` | FetchReplacementData.py:255-263 | One description cell without AI and two with it |
| `CsvExport.DescriptionCellsContent` | FetchReplacementData.py:255-263 | The first description cell is the one-line, break-free description (a one-line description unchanged), and the AI cell is the rephrasing of that one-line text |
| `CsvExport.WriteTuple` | FetchReplacementData.py:255-269 | A written row is as wide as the header, or 12 for the fallback, and its SR-number column is the record's |
| `CsvExport.WriteTupleRow` | FetchReplacementData.py:255-269 | A row starts with the record's eleven cells; a non-text description exits; an encodable row is written header-wide with the break-free one-line description; otherwise the 12-cell fallback row is written when it encodes, and the run exits when it does not |
| `CsvExport.WritePage` | FetchReplacementData.py:246-272 | Rows are appended one per tuple, in order, each the tuple's written row, until the first tuple whose write fails, whose error is the stop; every tuple is written exactly when nothing stops; the result is `WrittenRows` |
| `CsvExport.WrittenRows` | FetchReplacementData.py:254-269 | A page writes at most one row per tuple |
| `CsvExport.WrittenRowsAre` | FetchReplacementData.py:254-269 | Row k is tuple k's written row; the rows stop short exactly when a write fails, at the first failing tuple and with its error |
| `CsvExport.WrittenRowsOf` | FetchReplacementData.py:254-269 | Any rows and stop that behave as `WrittenRowsAre` describes are `WrittenRows`: that description determines a page's output |
| `CsvExport.RowsCarryIds` | FetchReplacementData.py:254-269 | Row k written for a page carries `str` of the k-th accepted id |
| `CsvExport.ProcessPage` | FetchReplacementData.py:168-272 | A halted ticket loop writes nothing and its exit is the stop; otherwise the rows appended are `WrittenRows` of the loop's records, row k being WriteTuple of record k, and a stop is the CSV handler's exit at the first record whose write fails; rows carry, in order, `str` of the ids the loop accepted, one per id when the page completes; the ids accepted are those the log gains; no page request is sent |
| `CsvExport.RowsAfterPage` | FetchReplacementData.py:138-272 | A page's rows follow the earlier pages' rows, so the file's data rows carry the accepted ids of all pages in order |
| `CsvExport.FetchPage` | FetchReplacementData.py:139-272 | One page's rows, request log and stop are exactly those of the page specification `PageStep`, and so is `data` when the run goes on |
| `CsvExport.RunPagesNext` | FetchReplacementData.py:138 | A run that has not stopped goes on with the next page |
| `CsvExport.RunPagesStopped` | FetchReplacementData.py:138-281 | Once a page has ended the run, later pages change nothing |
| `CsvExport.RowsCarryExtend` | FetchReplacementData.py:201-254 | Rows carrying a prefix of the accepted ids still do when more tickets are accepted |
| `CsvExport.PageStepRequests` | FetchReplacementData.py:138-238 | A page adds exactly its own page request to the log's page requests, whatever happens on it |
| `CsvExport.PageStepFacts` | FetchReplacementData.py:139-272 | A page keeps the rows header-wide or 12 wide and carrying `str` of the run's accepted ids in order, one row per id unless it stops, and requests exactly its page |
| `CsvExport.RunPagesKeeps` | FetchReplacementData.py:118-281 | A run of any pages from an empty log keeps every row fitting the header and carrying `str` of the accepted ids in order, one per id unless it stopped |
| `CsvExport.RunPagesRequested` | FetchReplacementData.py:138-149 | The pages a run requests are a prefix of its page list, in order, and the whole list unless it stopped |
| `CsvExport.FetchReplacementData` | FetchReplacementData.py:118-281 | The result is exactly `FetchRun`, the pages 1..300 folded with `PageStep`; the pages requested are 1, 2, ... in order, at most 300, and all 300 unless the run stops; every row is header-wide or 12 wide; data row j carries `str` of the j-th ticket accepted in the run, and a run that completes writes one row per accepted ticket |
| `CsvExport.RunExport` | FetchReplacementData.py:285-286 | The file starts with the header the merged AI answer selects, AI being on exactly when the merged answer is "yes"; every later row is 12 wide or header-wide and carries `str` of the next accepted ticket id; the page requests are 1, 2, ... in order; file, log and stop are exactly `FetchRun` from the new file |
| `Api.PagesRequestedAppend` | FetchReplacementData.py:138-149 | The pages requested by a log extension are those of the old log followed by those of the extension |
| `Api.NoPagesRequested` | FetchReplacementData.py:189-238 | Per-ticket requests add no page to the log |

## Left out

- The HTTP transport: URLs, authentication, connection errors and `response.close()`. The
  n-th response is a parameter.
- `randomSleep` and the progress messages (`print`): timing and console output only.
- `rephraseText` and the Ollama call: the rephraser is an arbitrary function; exceptions
  it might raise are not modelled.
- Reading and writing `user_data.json`, the keyboard prompts and `exit()` prompts: the
  stored preferences and the typed answers are parameters, and every stored value is taken
  to be a string.
- `readAPIKey`: the script never calls it (the call at line 284 is commented out).
- Opening the CSV file and `PermissionError`: the file is the sequence of rows written.
- Python's `csv` quoting and the file's character encoding: both are the `Sink` parameter.
  The failing string of the encoding error is taken to be the rendered CSV line of the row.
- Rows are written whole: a row whose write fails leaves no partial line.
- Timestamps, the date window and the file name: wall-clock values that only shape URLs and
  names.
- `int(user_data["days"])`: the day count only shapes the date window. An answer that is
  not an integer, which would raise ValueError after the header is written, is not modelled.
  Nor is a day count so large in magnitude that `datetime.now() - timedelta(days=days)`
  (line 122) leaves Python's date range and raises OverflowError; that too happens after
  the header is written and before any page is requested.
- JSON floating-point numbers are not among the modelled values.
- `PyJson.Str`: `str` of a JSON array or object id is a fixed placeholder, not Python's
  rendering of the container.
- The twelve lists are filled after both requests of an accepted ticket. In the source the
  item fields are appended before the ticket-detail request. When that request ends the run,
  the lists are never read, so the order cannot be observed.
- `CsvExport.FetchPage`: the value `data` holds after a page that ends the run is not
  stated, because no later page reads it.
- Lone surrogates: Dafny's `char` cannot hold the unpaired surrogate code points that
  Python's `json` decodes from an unpaired `\udXXX` escape. Under UTF-8 those are what
  raise UnicodeEncodeError, so that trigger of the fallback at line 264 is not
  representable. The encoding is the arbitrary predicate `Sink.encodable`, and every
  property is stated for any such predicate.

=== FILE: api.dfy ===
/** The helpdesk API as the export sees it. The network is left out: the answer to
    the n-th request of a run is `net(n)`, an arbitrary response, and the run keeps
    the log of the requests it sent. */
module Api {
  import opened PyJson

  /** What `response.json()` gives: a parsed value, or a JSONDecodeError. */
  datatype Body = Parsed(json: Json) | Unparseable

  datatype Response = Response(status: int, body: Body)

  /** The three endpoints the export calls (FetchReplacementData.py, lines 149, 194, 213). */
  datatype Request =
    | TicketsPage(page: int)       // GET .../tickets?updated_since=..&per_page=100&page=<page>
    | RequestedItems(ticket: Json)  // GET .../tickets/<id>/requested_items
    | TicketDetail(ticket: Json)    // GET .../tickets/<id>

  type Network = nat -> Response

  /** How a run ends early: the JSONDecodeError handler's `exit()`, the CSV block's
      `except Exception` handler's `exit()`, or an exception nothing catches. */
  datatype Stop = DecodeExit | WriteExit | Uncaught(error: PyError)

  /** The page numbers of the ticket-list requests in a log, in the order sent. */
  function PagesRequested(log: seq<Request>): (pages: seq<int>)
    ensures |pages| <= |log|
  {
    if log == [] then []
    else
      var last := log[|log| - 1];
      PagesRequested(log[..|log| - 1]) + (if last.TicketsPage? then [last.page] else [])
  }

  lemma {:induction false} PagesRequestedAppend(a: seq<Request>, b: seq<Request>)
    ensures PagesRequested(a + b) == PagesRequested(a) + PagesRequested(b)
    decreases |b|
  {
    if b == [] {
      assert a + b == a;
    } else {
      var b' := b[..|b| - 1];
      assert (a + b)[..|a + b| - 1] == a + b';
      PagesRequestedAppend(a, b');
    }
  }

  /** A log extension made only of per-ticket requests adds no page. */
  lemma {:induction false} NoPagesRequested(b: seq<Request>)
    requires forall r :: r in b ==> !r.TicketsPage?
    ensures PagesRequested(b) == []
    decreases |b|
  {
    if b != [] {
      assert b[|b| - 1] in b;
      NoPagesRequested(b[..|b| - 1]);
    }
  }
}

=== FILE: export.dfy ===
/** The CSV side of the export and the page loop that drives it
    (FetchReplacementData.py, lines 103-113 and 118-286). The file is the sequence of
    rows handed to `writer.writerow`; the rendering of a row as a CSV line and the
    character set of the file are parameters, as is the AI rephraser. */
module CsvExport {
  import opened PyJson
  import opened Api
  import opened LineText
  import opened Pagination
  import opened Tickets
  import Preferences

  type Row = seq<Json>

  /** The output file's encoder: how a row becomes a CSV line, and which characters the
      file's encoding can represent. */
  datatype Sink = Sink(render: Row -> string, encodable: char -> bool)

  const Columns12: seq<string> := [
    "Replacement Date", "Item", "Category", "Sub_Category", "Item_Category", "Model", "Building",
    "Service Request", "Technician", "Asset Number", "Username", "Full Description"]

  /** The header `createCSVFile` writes: the AI column only when AI is switched on. */
  function Header(ai: bool): (h: seq<string>)
    ensures |h| == (if ai then 13 else 12)
    ensures h[..12] == Columns12
    ensures h[7] == "Service Request" && h[11] == "Full Description"
    ensures ai ==> h[12] == "AI Description"
  {
    if ai then Columns12 + ["AI Description"] else Columns12
  }

  function HeaderRow(ai: bool): (r: Row)
    ensures |r| == |Header(ai)| && forall i :: 0 <= i < |r| ==> r[i] == JStr(Header(ai)[i])
  {
    var h := Header(ai);
    seq(|h|, i requires 0 <= i < |h| => JStr(h[i]))
  }

  /** `createCSVFile`: a fresh file holding the header. */
  function CreateCsvFile(ai: bool): (file: seq<Row>)
    ensures file == [HeaderRow(ai)] && |file[0]| == (if ai then 13 else 12)
  {
    [HeaderRow(ai)]
  }

  /** Every character of the line can be represented in the file's encoding. */
  predicate Encodes(line: string, encodable: char -> bool) {
    forall i :: 0 <= i < |line| ==> encodable(line[i])
  }

  /** The index of the first character the encoding cannot represent (`e.start`). */
  function FirstUnencodable(line: string, encodable: char -> bool): (r: Option<nat>)
    ensures r.None? <==> forall i :: 0 <= i < |line| ==> encodable(line[i])
    ensures r.Some? ==> r.value < |line| && !encodable(line[r.value]) &&
                        forall i :: 0 <= i < r.value ==> encodable(line[i])
  {
    if line == [] then None
    else if !encodable(line[0]) then Some(0)
    else match FirstUnencodable(line[1..], encodable)
      case None => None
      case Some(i) => Some(i + 1)
  }

  /** Lines 257-269 around one `writerow`: when the rendered line cannot be encoded, the
      handler writes the first eleven cells followed by the rendered line with its first
      unencodable character replaced by a space; a failure of that second write reaches the
      `except Exception` handler, which exits. */
  function WriteRow(sink: Sink, cells: seq<Json>, tail: seq<Json>): (r: Result<Row, Stop>)
    ensures r.Err? ==> r.error == WriteExit
    ensures r.Ok? ==> (|r.value| == |cells| + |tail| || |r.value| == |cells| + 1) && r.value[..|cells|] == cells
  {
    var line := sink.render(cells + tail);
    match FirstUnencodable(line, sink.encodable)
    case None => assert (cells + tail)[..|cells|] == cells; Ok(cells + tail)
    case Some(start) =>
      var fallback := cells + [JStr(Splice(line, start))];
      assert fallback[..|cells|] == cells;
      if FirstUnencodable(sink.render(fallback), sink.encodable).None? then Ok(fallback) else Err(WriteExit)
  }

  /** What reaches the file can always be encoded. A row whose line can be encoded is
      written unchanged. Otherwise the row is written again as its cells followed by the
      line with its first unencodable character overwritten by a space, and the run exits
      only when that line cannot be encoded either. */
  lemma WriteRowEncodes(sink: Sink, cells: seq<Json>, tail: seq<Json>)
    ensures var r := WriteRow(sink, cells, tail);
      r.Ok? ==> Encodes(sink.render(r.value), sink.encodable)
    ensures var r := WriteRow(sink, cells, tail);
      var line := sink.render(cells + tail);
      Encodes(line, sink.encodable) ==> r == Ok(cells + tail)
    ensures var r := WriteRow(sink, cells, tail);
      var line := sink.render(cells + tail);
      !Encodes(line, sink.encodable) ==>
        var fallback := cells + [JStr(Splice(line, FirstUnencodable(line, sink.encodable).value))];
        && (Encodes(sink.render(fallback), sink.encodable) ==> r == Ok(fallback))
        && (!Encodes(sink.render(fallback), sink.encodable) ==> r == Err(WriteExit))
  {
    var line := sink.render(cells + tail);
    var first := FirstUnencodable(line, sink.encodable);
    if first.Some? {
      var fallback := cells + [JStr(Splice(line, first.value))];
      assert FirstUnencodable(sink.render(fallback), sink.encodable).None? <==>
             Encodes(sink.render(fallback), sink.encodable);
    }
  }

  /** The first eleven cells of a row, in header order. */
  function Cells(r: Record): (c: seq<Json>)
    ensures |c| == 11 && c[7] == r.srNumber
  {
    [r.date, r.item, r.category, r.subCategory, r.itemCategory, r.model, r.building,
     r.srNumber, r.technician, r.asset, r.username]
  }

  /** The description cells of a row: `formattedString`, then the rephrased text when AI
      is on. */
  function DescriptionCells(ai: bool, rephrase: string -> string, description: string): (c: seq<Json>)
    ensures |c| == (if ai then 2 else 1)
  {
    var formatted := OneLine(description);
    if ai then [JStr(formatted), JStr(rephrase(formatted))] else [JStr(formatted)]
  }

  /** The first description cell is the description on one line, free of line breaks; the
      AI cell, when present, is the rephrasing of that one-line text. */
  lemma DescriptionCellsContent(ai: bool, rephrase: string -> string, description: string)
    ensures var c := DescriptionCells(ai, rephrase, description);
      && c[0].JStr? && c[0].s == OneLine(description) && NoBreaks(c[0].s)
      && (description != [] && NoBreaks(description) ==> c[0].s == description)
      && (ai ==> c[1] == JStr(rephrase(c[0].s)))
  {
    OneLineHasNoBreaks(description);
    if description != [] && NoBreaks(description) {
      OneLineKeepsSingleLine(description);
    }
  }

  /** Lines 255-269 for one zipped tuple: the description put on one line, the AI
      description added when AI is on, written with the encoding fallback. A description
      that is not a string makes `splitlines` raise, which the `except Exception` handler
      turns into an exit. */
  function WriteTuple(sink: Sink, ai: bool, rephrase: string -> string, r: Record): (w: Result<Row, Stop>)
    ensures w.Err? ==> w.error == WriteExit
    ensures w.Ok? ==> (|w.value| == |Header(ai)| || |w.value| == 12) && w.value[7] == r.srNumber
  {
    if !r.description.JStr? then Err(WriteExit)
    else
      WriteRow(sink, Cells(r), DescriptionCells(ai, rephrase, r.description.s))
  }

  /** A row starts with the record's eleven cells; a description that is not text ends
      the run. When the full row can be encoded it is written as is, header-wide, its
      description cell on one line. Otherwise the fallback row of twelve cells is written
      when it can be encoded, and the run ends when it cannot. */
  lemma WriteTupleRow(sink: Sink, ai: bool, rephrase: string -> string, r: Record)
    ensures var w := WriteTuple(sink, ai, rephrase, r);
      && (w.Ok? ==> w.value[..11] == Cells(r))
      && (!r.description.JStr? ==> w == Err(WriteExit))
    ensures var w := WriteTuple(sink, ai, rephrase, r);
      r.description.JStr? ==>
        var row := Cells(r) + DescriptionCells(ai, rephrase, r.description.s);
        Encodes(sink.render(row), sink.encodable) ==>
          w == Ok(row) && |row| == |Header(ai)| &&
          row[11] == JStr(OneLine(r.description.s)) && NoBreaks(row[11].s)
    ensures var w := WriteTuple(sink, ai, rephrase, r);
      r.description.JStr? ==>
        var line := sink.render(Cells(r) + DescriptionCells(ai, rephrase, r.description.s));
        !Encodes(line, sink.encodable) ==>
          var fallback := Cells(r) + [JStr(Splice(line, FirstUnencodable(line, sink.encodable).value))];
          |fallback| == 12 &&
          (Encodes(sink.render(fallback), sink.encodable) ==> w == Ok(fallback)) &&
          (!Encodes(sink.render(fallback), sink.encodable) ==> w == Err(WriteExit))
  {
    if r.description.JStr? {
      WriteRowEncodes(sink, Cells(r), DescriptionCells(ai, rephrase, r.description.s));
      OneLineHasNoBreaks(r.description.s);
    }
  }

  /** Lines 246-272: the rows of one page appended to the file, one per zipped tuple,
      `write` writing each, until the first tuple whose write ends the run. */
  method WritePage(write: Record -> Result<Row, Stop>, tuples: seq<Record>, file0: seq<Row>)
    returns (file: seq<Row>, stop: Option<Stop>)
    ensures file0 <= file && |file| - |file0| <= |tuples|
    ensures forall k :: 0 <= k < |file| - |file0| ==> write(tuples[k]) == Ok(file[|file0| + k])
    ensures stop.None? <==> |file| - |file0| == |tuples|
    ensures stop.Some? ==> write(tuples[|file| - |file0|]).Err? && stop == Some(write(tuples[|file| - |file0|]).error)
    ensures file == file0 + WrittenRows(write, tuples).0 && stop == WrittenRows(write, tuples).1
  {
    file, stop := file0, None;
    for k := 0 to |tuples|
      invariant file0 <= file && |file| == |file0| + k
      invariant forall j :: 0 <= j < k ==> write(tuples[j]) == Ok(file[|file0| + j])
    {
      var written := write(tuples[k]);
      if written.Err? {
        stop := Some(written.error);
        WrittenRowsAfter(write, tuples, file0, file, stop);
        return;
      }
      file := file + [written.value];
    }
    WrittenRowsAfter(write, tuples, file0, file, stop);
  }

  /** Writing one tuple with the run's sink, AI switch and rephraser. */
  function Writer(sink: Sink, ai: bool, rephrase: string -> string): Record -> Result<Row, Stop> {
    r => WriteTuple(sink, ai, rephrase, r)
  }

  /** The rows lines 246-272 write for a page's tuples, `write` writing one tuple, and the
      exit that cuts them short: tuples are written in order until the first one whose
      write fails. */
  function WrittenRows(write: Record -> Result<Row, Stop>, tuples: seq<Record>): (w: (seq<Row>, Option<Stop>))
    ensures |w.0| <= |tuples|
    decreases |tuples|
  {
    if tuples == [] then ([], None)
    else
      match write(tuples[0])
      case Err(stop) => ([], Some(stop))
      case Ok(row) =>
        var rest := WrittenRows(write, tuples[1..]);
        ([row] + rest.0, rest.1)
  }

  /** The k-th row written is the k-th tuple's row; the page stops short exactly when a
      tuple's write fails, and then on the first such tuple, with that write's exit. */
  lemma {:induction false} WrittenRowsAre(write: Record -> Result<Row, Stop>, tuples: seq<Record>)
    ensures var w := WrittenRows(write, tuples);
      && (forall k :: 0 <= k < |w.0| ==> write(tuples[k]) == Ok(w.0[k]))
      && (w.1.None? <==> |w.0| == |tuples|)
      && (w.1.Some? ==> write(tuples[|w.0|]).Err? && w.1 == Some(write(tuples[|w.0|]).error))
    decreases |tuples|
  {
    if tuples != [] && write(tuples[0]).Ok? {
      var rest := tuples[1..];
      WrittenRowsAre(write, rest);
      var w := WrittenRows(write, tuples);
      forall k | 0 <= k < |w.0|
        ensures write(tuples[k]) == Ok(w.0[k])
      {
        if k > 0 {
          assert tuples[k] == rest[k - 1];
        }
      }
    }
  }

  /** Rows and an exit that behave as WrittenRowsAre describes are WrittenRows: the
      description determines the page's output. */
  lemma {:induction false} WrittenRowsOf(write: Record -> Result<Row, Stop>, tuples: seq<Record>,
                                         rows: seq<Row>, stop: Option<Stop>)
    requires |rows| <= |tuples|
    requires forall k :: 0 <= k < |rows| ==> write(tuples[k]) == Ok(rows[k])
    requires stop.None? <==> |rows| == |tuples|
    requires stop.Some? ==> write(tuples[|rows|]).Err? && stop == Some(write(tuples[|rows|]).error)
    ensures WrittenRows(write, tuples) == (rows, stop)
    decreases |tuples|
  {
    if tuples != [] && rows != [] {
      assert write(tuples[0]) == Ok(rows[0]);
      var rest := tuples[1..];
      forall k | 0 <= k < |rows| - 1
        ensures write(rest[k]) == Ok(rows[1..][k])
      {
        assert rest[k] == tuples[k + 1];
      }
      if stop.Some? {
        assert rest[|rows| - 1] == tuples[|rows|];
      }
      WrittenRowsOf(write, rest, rows[1..], stop);
      assert rows == [rows[0]] + rows[1..];
    }
  }

  /** Rows appended after `file0` as WrittenRowsAre describes are WrittenRows. */
  lemma WrittenRowsAfter(write: Record -> Result<Row, Stop>, tuples: seq<Record>,
                         file0: seq<Row>, file: seq<Row>, stop: Option<Stop>)
    requires file0 <= file && |file| - |file0| <= |tuples|
    requires forall k :: 0 <= k < |file| - |file0| ==> write(tuples[k]) == Ok(file[|file0| + k])
    requires stop.None? <==> |file| - |file0| == |tuples|
    requires stop.Some? ==> write(tuples[|file| - |file0|]).Err? && stop == Some(write(tuples[|file| - |file0|]).error)
    ensures file == file0 + WrittenRows(write, tuples).0 && stop == WrittenRows(write, tuples).1
  {
    var rows := file[|file0|..];
    assert forall k :: 0 <= k < |rows| ==> rows[k] == file[|file0| + k];
    WrittenRowsOf(write, tuples, rows, stop);
    assert file == file0 + rows;
  }

  /** What the run's writer writes is what WriteTuple writes, and it fails only by exiting. */
  lemma WrittenByWriter(sink: Sink, ai: bool, rephrase: string -> string, tuples: seq<Record>,
                        file0: seq<Row>, file: seq<Row>, stop: Option<Stop>)
    requires |file| - |file0| <= |tuples| && |file0| <= |file|
    requires forall k :: 0 <= k < |file| - |file0| ==> Writer(sink, ai, rephrase)(tuples[k]) == Ok(file[|file0| + k])
    requires stop.Some? ==> |file| - |file0| < |tuples|
    requires stop.Some? ==> var w := Writer(sink, ai, rephrase)(tuples[|file| - |file0|]); w.Err? && stop == Some(w.error)
    ensures forall k :: 0 <= k < |file| - |file0| ==> WriteTuple(sink, ai, rephrase, tuples[k]) == Ok(file[|file0| + k])
    ensures stop.Some? ==> stop == Some(WriteExit) && WriteTuple(sink, ai, rephrase, tuples[|file| - |file0|]).Err?
  {
    forall k | 0 <= k < |file| - |file0|
      ensures WriteTuple(sink, ai, rephrase, tuples[k]) == Ok(file[|file0| + k])
    {
      assert Writer(sink, ai, rephrase)(tuples[k]) == Ok(file[|file0| + k]);
    }
  }

  /** The rows after `file0` are data rows carrying, in order, `str` of a prefix of the
      accepted ids as their SR number. */
  predicate RowsCarry(file0: seq<Row>, file: seq<Row>, accepted: seq<Json>) {
    file0 <= file && |file| <= |file0| + |accepted| &&
    forall j :: |file0| <= j < |file| ==> |file[j]| >= 12 && file[j][7] == JStr(Str(accepted[j - |file0|]))
  }

  /** One page: the ticket loop, then the rows it produced. The page writes one row per
      accepted ticket, in acceptance order, each carrying `str` of that ticket's id; a write
      that ends the run leaves a prefix of those rows. */
  method ProcessPage(net: Network, ids: seq<Json>, sent0: seq<Request>, data0: Option<Json>,
                     ai: bool, rephrase: string -> string, sink: Sink, file0: seq<Row>)
    returns (file: seq<Row>, sent: seq<Request>, data: Option<Json>, stop: Option<Stop>)
    ensures file0 <= file
    ensures forall j :: |file0| <= j < |file| ==> |file[j]| == |Header(ai)| || |file[j]| == 12
    ensures sent0 <= sent && PagesRequested(sent) == PagesRequested(sent0)
    ensures var p := Scan(net, ids, Acc([], [], sent0, data0));
      && sent == p.acc.sent
      && AcceptedIds(net, sent) == AcceptedIds(net, sent0) + p.acc.accepted
      && RowsCarry(file0, file, p.acc.accepted)
    ensures var p := Scan(net, ids, Acc([], [], sent0, data0));
      stop.None? ==> p.Running? && data == p.acc.data && |file| == |file0| + |p.acc.accepted|
    ensures var p := Scan(net, ids, Acc([], [], sent0, data0));
      p.Halted? ==> file == file0 && stop == Some(p.stop)
    ensures var p := Scan(net, ids, Acc([], [], sent0, data0));
      && |file| - |file0| <= |p.acc.records|
      && forall k :: 0 <= k < |file| - |file0| ==> WriteTuple(sink, ai, rephrase, p.acc.records[k]) == Ok(file[|file0| + k])
    ensures var p := Scan(net, ids, Acc([], [], sent0, data0));
      p.Running? && stop.Some? ==>
        && |file| - |file0| < |p.acc.records|
        && stop == Some(WriteExit) && WriteTuple(sink, ai, rephrase, p.acc.records[|file| - |file0|]).Err?
    ensures var p := Scan(net, ids, Acc([], [], sent0, data0));
      var w := WrittenRows(Writer(sink, ai, rephrase), p.acc.records);
      p.Running? ==> file == file0 + w.0 && stop == w.1 && data == p.acc.data
  {
    var cols: Columns;
    cols, sent, data, stop := ExtractPage(net, ids, sent0, data0);
    assert sent == sent0 + sent[|sent0|..];
    NoPagesRequested(sent[|sent0|..]);
    PagesRequestedAppend(sent0, sent[|sent0|..]);
    ScanAcceptedIds(net, ids, sent0, data0);
    if stop.Some? {
      return file0, sent, data, stop;
    }
    ghost var p := Scan(net, ids, Acc([], [], sent0, data0));
    ScanRecordsMatchAccepted(net, ids, sent0, data0);
    file, stop := WritePage(Writer(sink, ai, rephrase), cols.Zip(), file0);
    WrittenByWriter(sink, ai, rephrase, cols.Zip(), file0, file, stop);
    RowWidths(cols.Zip(), ai, rephrase, sink, file0, file);
    assert cols.Zip() == p.acc.records;
    RowsCarryIds(p.acc.records, p.acc.accepted, ai, rephrase, sink, file0, file);
  }

  lemma RowWidths(tuples: seq<Record>, ai: bool, rephrase: string -> string, sink: Sink, file0: seq<Row>, file: seq<Row>)
    requires file0 <= file && |file| - |file0| <= |tuples|
    requires forall k :: 0 <= k < |file| - |file0| ==> WriteTuple(sink, ai, rephrase, tuples[k]) == Ok(file[|file0| + k])
    ensures forall j :: |file0| <= j < |file| ==> |file[j]| == |Header(ai)| || |file[j]| == 12
  {
    forall j | |file0| <= j < |file|
      ensures |file[j]| == |Header(ai)| || |file[j]| == 12
    {
      assert WriteTuple(sink, ai, rephrase, tuples[j - |file0|]) == Ok(file[|file0| + (j - |file0|)]);
    }
  }

  /** The k-th row written for a page carries the SR number of the page's k-th record. */
  lemma RowsCarryIds(records: seq<Record>, accepted: seq<Json>,
                     ai: bool, rephrase: string -> string, sink: Sink, file0: seq<Row>, file: seq<Row>)
    requires |records| == |accepted|
    requires forall k :: 0 <= k < |records| ==> records[k].srNumber == JStr(Str(accepted[k]))
    requires file0 <= file && |file| - |file0| <= |records|
    requires forall k :: 0 <= k < |file| - |file0| ==> WriteTuple(sink, ai, rephrase, records[k]) == Ok(file[|file0| + k])
    ensures RowsCarry(file0, file, accepted)
  {
    forall j | |file0| <= j < |file|
      ensures |file[j]| >= 12 && file[j][7] == JStr(Str(accepted[j - |file0|]))
    {
      var k := j - |file0|;
      var w := WriteTuple(sink, ai, rephrase, records[k]);
      assert w == Ok(file[|file0| + k]);
      assert w.value[7] == records[k].srNumber;
    }
  }

  /** The rows of a page follow the rows of the earlier pages, one per ticket accepted. */
  lemma RowsAfterPage(file0: seq<Row>, file: seq<Row>, file': seq<Row>, before: seq<Json>, page: seq<Json>)
    requires RowsCarry(file0, file, before) && |file| == |file0| + |before|
    requires RowsCarry(file, file', page)
    ensures RowsCarry(file0, file', before + page)
  {
    forall j | |file0| <= j < |file'|
      ensures |file'[j]| >= 12 && file'[j][7] == JStr(Str((before + page)[j - |file0|]))
    {
      if j < |file| {
        assert file'[j] == file[j];
      }
    }
  }

  /** The rows after `file0` are as wide as the header, or 12 wide for a fallback row. */
  predicate RowsFit(file0: seq<Row>, file: seq<Row>, ai: bool) {
    forall j :: |file0| <= j < |file| ==> |file[j]| == |Header(ai)| || |file[j]| == 12
  }

  /** The state the page loop carries from one page to the next, and how the run ended. */
  datatype Run = Run(file: seq<Row>, sent: seq<Request>, data: Option<Json>, stop: Option<Stop>)

  /** One page of the run (lines 139-272): the ticket-list request, the service requests
      read from whatever `data` then holds, the ticket loop over them, and the rows written
      from the records it produced. */
  function PageStep(net: Network, ai: bool, rephrase: string -> string, sink: Sink, r: Run, page: int): Run {
    var sent := r.sent + [TicketsPage(page)];
    match PageCandidates(net(|r.sent|), r.data)
    case Err(stop) => Run(r.file, sent, r.data, Some(stop))
    case Ok(c) =>
      match Scan(net, c.1, Acc([], [], sent, Some(c.0)))
      case Halted(a, stop) => Run(r.file, a.sent, a.data, Some(stop))
      case Running(a) =>
        var w := WrittenRows(Writer(sink, ai, rephrase), a.records);
        Run(r.file + w.0, a.sent, a.data, w.1)
  }

  /** The pages in turn from `start`, up to the first page that ends the run. */
  function RunPages(net: Network, ai: bool, rephrase: string -> string, sink: Sink, pages: seq<int>, start: Run): Run
    decreases |pages|
  {
    if pages == [] then start
    else
      var before := RunPages(net, ai, rephrase, sink, pages[..|pages| - 1], start);
      if before.stop.Some? then before else PageStep(net, ai, rephrase, sink, before, pages[|pages| - 1])
  }

  /** `fetchReplacementData` as a function of the network: pages 1..300 from an empty
      request log and no `data`, appending to `file0`. */
  function FetchRun(net: Network, ai: bool, rephrase: string -> string, sink: Sink, file0: seq<Row>): Run {
    RunPages(net, ai, rephrase, sink, PageNumbers(LastPage), Run(file0, [], None, None))
  }

  /** A run that has not ended goes on with the next page. */
  lemma RunPagesNext(net: Network, ai: bool, rephrase: string -> string, sink: Sink,
                     pages: seq<int>, n: nat, start: Run)
    requires n < |pages| && RunPages(net, ai, rephrase, sink, pages[..n], start).stop.None?
    ensures RunPages(net, ai, rephrase, sink, pages[..n + 1], start) ==
      PageStep(net, ai, rephrase, sink, RunPages(net, ai, rephrase, sink, pages[..n], start), pages[n])
  {
    assert pages[..n + 1][..n] == pages[..n];
  }

  /** Once a page has ended the run, the later pages change nothing. */
  lemma {:induction false} RunPagesStopped(net: Network, ai: bool, rephrase: string -> string, sink: Sink,
                                           pages: seq<int>, i: nat, start: Run)
    requires i <= |pages| && RunPages(net, ai, rephrase, sink, pages[..i], start).stop.Some?
    ensures RunPages(net, ai, rephrase, sink, pages, start) == RunPages(net, ai, rephrase, sink, pages[..i], start)
    decreases |pages| - i
  {
    if i == |pages| {
      assert pages[..i] == pages;
    } else {
      assert pages[..i + 1][..i] == pages[..i];
      RunPagesStopped(net, ai, rephrase, sink, pages, i + 1, start);
    }
  }

  /** The facts the page loop keeps: the rows after `file0` fit the header, carry the
      accepted ids in order, and while the run goes on there is one row per accepted id. */
  predicate RunKeeps(net: Network, ai: bool, file0: seq<Row>, r: Run) {
    && RowsFit(file0, r.file, ai)
    && RowsCarry(file0, r.file, AcceptedIds(net, r.sent))
    && (r.stop.None? ==> |r.file| == |file0| + |AcceptedIds(net, r.sent)|)
  }

  /** Rows that carry a prefix of the accepted ids still do once more ids are accepted. */
  lemma RowsCarryExtend(file0: seq<Row>, file: seq<Row>, before: seq<Json>, more: seq<Json>)
    requires RowsCarry(file0, file, before)
    ensures RowsCarry(file0, file, before + more)
  {
    forall j | |file0| <= j < |file|
      ensures file[j][7] == JStr(Str((before + more)[j - |file0|]))
    {
      assert (before + more)[j - |file0|] == before[j - |file0|];
    }
  }

  lemma RowsFitAfter(file0: seq<Row>, file: seq<Row>, file': seq<Row>, ai: bool)
    requires file0 <= file <= file' && RowsFit(file0, file, ai)
    requires forall j :: |file| <= j < |file'| ==> |file'[j]| == |Header(ai)| || |file'[j]| == 12
    ensures RowsFit(file0, file', ai)
  {
    forall j | |file0| <= j < |file'|
      ensures |file'[j]| == |Header(ai)| || |file'[j]| == 12
    {
      if j < |file| {
        assert file'[j] == file[j];
      }
    }
  }

  /** The rows a completed ticket loop writes keep the loop's facts. */
  lemma PageRowsFacts(net: Network, ai: bool, rephrase: string -> string, sink: Sink,
                      file0: seq<Row>, file: seq<Row>, sent: seq<Request>, a: Acc)
    requires RowsFit(file0, file, ai) && RowsCarry(file0, file, AcceptedIds(net, sent))
    requires |file| == |file0| + |AcceptedIds(net, sent)|
    requires AcceptedIds(net, a.sent) == AcceptedIds(net, sent) + a.accepted
    requires |a.records| == |a.accepted|
    requires forall k :: 0 <= k < |a.records| ==> a.records[k].srNumber == JStr(Str(a.accepted[k]))
    ensures var w := WrittenRows(Writer(sink, ai, rephrase), a.records);
      RunKeeps(net, ai, file0, Run(file + w.0, a.sent, a.data, w.1))
  {
    var w := WrittenRows(Writer(sink, ai, rephrase), a.records);
    var file' := file + w.0;
    WrittenRowsAre(Writer(sink, ai, rephrase), a.records);
    assert forall k :: 0 <= k < |w.0| ==> file'[|file| + k] == w.0[k];
    WrittenByWriter(sink, ai, rephrase, a.records, file, file', w.1);
    RowWidths(a.records, ai, rephrase, sink, file, file');
    RowsFitAfter(file0, file, file', ai);
    RowsCarryIds(a.records, a.accepted, ai, rephrase, sink, file, file');
    RowsAfterPage(file0, file, file', AcceptedIds(net, sent), a.accepted);
  }

  /** The ticket loop of a page and the rows it writes keep the loop's facts, and request
      no further page. */
  lemma PageTicketsFacts(net: Network, ai: bool, rephrase: string -> string, sink: Sink,
                         file0: seq<Row>, file: seq<Row>, sent: seq<Request>, ids: seq<Json>, data: Option<Json>)
    requires RowsFit(file0, file, ai) && RowsCarry(file0, file, AcceptedIds(net, sent))
    requires |file| == |file0| + |AcceptedIds(net, sent)|
    ensures var p := Scan(net, ids, Acc([], [], sent, data));
      PagesRequested(p.acc.sent) == PagesRequested(sent)
    ensures var p := Scan(net, ids, Acc([], [], sent, data));
      p.Halted? ==> RunKeeps(net, ai, file0, Run(file, p.acc.sent, p.acc.data, Some(p.stop)))
    ensures var p := Scan(net, ids, Acc([], [], sent, data));
      var w := WrittenRows(Writer(sink, ai, rephrase), p.acc.records);
      p.Running? ==> RunKeeps(net, ai, file0, Run(file + w.0, p.acc.sent, p.acc.data, w.1))
  {
    var p := Scan(net, ids, Acc([], [], sent, data));
    ScanAcceptedIds(net, ids, sent, data);
    ScanSendsNoPages(net, ids, Acc([], [], sent, data));
    assert p.acc.sent == sent + p.acc.sent[|sent|..];
    NoPagesRequested(p.acc.sent[|sent|..]);
    PagesRequestedAppend(sent, p.acc.sent[|sent|..]);
    if p.Halted? {
      RowsCarryExtend(file0, file, AcceptedIds(net, sent), p.acc.accepted);
    } else {
      ScanRecordsMatchAccepted(net, ids, sent, data);
      PageRowsFacts(net, ai, rephrase, sink, file0, file, sent, p.acc);
    }
  }

  /** A page requests that page and then only per-ticket endpoints. */
  lemma PageStepRequests(net: Network, ai: bool, rephrase: string -> string, sink: Sink, r: Run, page: int)
    ensures PagesRequested(PageStep(net, ai, rephrase, sink, r, page).sent) == PagesRequested(r.sent) + [page]
  {
    var sent := r.sent + [TicketsPage(page)];
    PagesRequestedAppend(r.sent, [TicketsPage(page)]);
    assert PagesRequested([TicketsPage(page)]) == [page];
    match PageCandidates(net(|r.sent|), r.data)
    case Err(stop) =>
    case Ok(c) =>
      var start := Acc([], [], sent, Some(c.0));
      var p := Scan(net, c.1, start);
      ScanSendsNoPages(net, c.1, start);
      assert p.acc.sent == sent + p.acc.sent[|sent|..];
      NoPagesRequested(p.acc.sent[|sent|..]);
      PagesRequestedAppend(sent, p.acc.sent[|sent|..]);
  }

  /** One page keeps the loop's facts and requests exactly that page. */
  lemma PageStepFacts(net: Network, ai: bool, rephrase: string -> string, sink: Sink,
                      file0: seq<Row>, r: Run, page: int)
    requires r.stop.None? && RunKeeps(net, ai, file0, r)
    ensures var q := PageStep(net, ai, rephrase, sink, r, page);
      RunKeeps(net, ai, file0, q) && PagesRequested(q.sent) == PagesRequested(r.sent) + [page]
  {
    var sent := r.sent + [TicketsPage(page)];
    PagesRequestedAppend(r.sent, [TicketsPage(page)]);
    AcceptedIdsSnoc(net, r.sent, TicketsPage(page));
    assert PagesRequested([TicketsPage(page)]) == [page];
    match PageCandidates(net(|r.sent|), r.data)
    case Err(stop) =>
    case Ok(c) =>
      PageTicketsFacts(net, ai, rephrase, sink, file0, r.file, sent, c.1, Some(c.0));
  }

  /** The whole run from an empty log keeps the loop's facts: the rows fit the header and
      carry the accepted ids in order, one per accepted id unless the run ended early. */
  lemma {:induction false} RunPagesKeeps(net: Network, ai: bool, rephrase: string -> string, sink: Sink,
                                         pages: seq<int>, file0: seq<Row>)
    ensures RunKeeps(net, ai, file0, RunPages(net, ai, rephrase, sink, pages, Run(file0, [], None, None)))
    decreases |pages|
  {
    if pages == [] {
      assert RowsCarry(file0, file0, AcceptedIds(net, []));
    } else {
      var init := pages[..|pages| - 1];
      RunPagesKeeps(net, ai, rephrase, sink, init, file0);
      var before := RunPages(net, ai, rephrase, sink, init, Run(file0, [], None, None));
      if before.stop.None? {
        PageStepFacts(net, ai, rephrase, sink, file0, before, pages[|pages| - 1]);
      }
    }
  }

  /** The pages a run requests are the pages in order, all of them unless the run ended
      early. */
  lemma {:induction false} RunPagesRequested(net: Network, ai: bool, rephrase: string -> string, sink: Sink,
                                             pages: seq<int>, file0: seq<Row>)
    ensures var r := RunPages(net, ai, rephrase, sink, pages, Run(file0, [], None, None));
      && PagesRequested(r.sent) <= pages
      && (r.stop.None? ==> PagesRequested(r.sent) == pages)
    decreases |pages|
  {
    if pages != [] {
      var init := pages[..|pages| - 1];
      RunPagesRequested(net, ai, rephrase, sink, init, file0);
      var before := RunPages(net, ai, rephrase, sink, init, Run(file0, [], None, None));
      assert init <= pages;
      if before.stop.None? {
        PageStepRequests(net, ai, rephrase, sink, before, pages[|pages| - 1]);
        assert pages == init + [pages[|pages| - 1]];
      }
    }
  }

  /** Lines 139-272 for one page: the ticket-list request, the service requests of
      whatever `data` then holds, and the page's tickets and rows. A page answered with 200
      replaces `data` with its `tickets` value; any other status leaves `data` as the
      previous page or ticket left it, and where it was never assigned raises
      UnboundLocalError. */
  method FetchPage(net: Network, page: int, ai: bool, rephrase: string -> string, sink: Sink,
                   file0: seq<Row>, sent0: seq<Request>, data0: Option<Json>)
    returns (file: seq<Row>, sent: seq<Request>, data: Option<Json>, stop: Option<Stop>)
    ensures var q := PageStep(net, ai, rephrase, sink, Run(file0, sent0, data0, None), page);
      file == q.file && sent == q.sent && stop == q.stop && (stop.None? ==> data == q.data)
  {
    var response := net(|sent0|);
    sent := sent0 + [TicketsPage(page)];
    var candidates := PageServiceRequests(response, data0);
    if candidates.Err? {
      return file0, sent, data0, Some(candidates.error);
    }
    var tickets, ids := candidates.value.0, candidates.value.1;
    file, sent, data, stop := ProcessPage(net, ids, sent, Some(tickets), ai, rephrase, sink, file0);
  }

  /** `fetchReplacementData`: pages 1..300 in order, each fetched and written by FetchPage,
      until a page ends the run. */
  method FetchReplacementData(net: Network, ai: bool, rephrase: string -> string, sink: Sink, file0: seq<Row>)
    returns (file: seq<Row>, sent: seq<Request>, stop: Option<Stop>)
    ensures file0 <= file && RowsFit(file0, file, ai)
    ensures var pages := PagesRequested(sent);
      |pages| <= LastPage && (forall i :: 0 <= i < |pages| ==> pages[i] == i + 1) &&
      (stop.None? ==> |pages| == LastPage)
    ensures RowsCarry(file0, file, AcceptedIds(net, sent))
    ensures stop.None? ==> |file| == |file0| + |AcceptedIds(net, sent)|
    ensures var r := FetchRun(net, ai, rephrase, sink, file0);
      file == r.file && sent == r.sent && stop == r.stop
  {
    var pageList := PageList();
    ghost var start := Run(file0, [], None, None);
    RunPagesKeeps(net, ai, rephrase, sink, pageList, file0);
    RunPagesRequested(net, ai, rephrase, sink, pageList, file0);
    file, sent, stop := file0, [], None;
    var data: Option<Json> := None;
    for n := 0 to |pageList|
      invariant RunPages(net, ai, rephrase, sink, pageList[..n], start) == Run(file, sent, data, None)
    {
      var page := pageList[n];
      var stop';
      RunPagesNext(net, ai, rephrase, sink, pageList, n, start);
      file, sent, data, stop' := FetchPage(net, page, ai, rephrase, sink, file, sent, data);
      if stop'.Some? {
        RunPagesStopped(net, ai, rephrase, sink, pageList, n + 1, start);
        return file, sent, stop';
      }
    }
    assert pageList[..|pageList|] == pageList;
  }

  /** The script's top level (lines 35-41, 285-286): merge the answers, create the file
      with the header the AI answer selects, then fetch. */
  method RunExport(userData: map<string, string>, typed: seq<string>, net: Network,
                   rephrase: string -> string, sink: Sink)
    returns (prefs: map<string, string>, file: seq<Row>, sent: seq<Request>, stop: Option<Stop>)
    requires |typed| == |Preferences.Questions|
    ensures "ai" in prefs && |file| >= 1 && file[0] == HeaderRow(Preferences.AiEnabled(prefs))
    ensures forall j :: 1 <= j < |file| ==>
      |file[j]| == 12 || |file[j]| == |file[0]|
    ensures var pages := PagesRequested(sent);
      (forall i :: 0 <= i < |pages| ==> pages[i] == i + 1) && (stop.None? ==> |pages| == LastPage)
    ensures Preferences.AiEnabled(prefs) <==>
      (if "ai" in userData && typed[3] == "" then userData["ai"] else typed[3]) == "yes"
    ensures RowsCarry(file[..1], file, AcceptedIds(net, sent))
    ensures stop.None? ==> |file| == 1 + |AcceptedIds(net, sent)|
    ensures var ai := Preferences.AiEnabled(prefs);
      var r := FetchRun(net, ai, rephrase, sink, CreateCsvFile(ai));
      file == r.file && sent == r.sent && stop == r.stop
  {
    prefs := Preferences.MergeAnswers(userData, typed);
    assert Preferences.Questions[3] == "ai";
    var ai := Preferences.AiEnabled(prefs);
    file := CreateCsvFile(ai);
    file, sent, stop := FetchReplacementData(net, ai, rephrase, sink, file);
  }
}

=== FILE: json.dfy ===
/** Parsed JSON values and the few Python operations the export applies to them:
    subscripting by key, `dict.get`, `x[0]` and `str(x)`. Each operation yields the
    Python exception it would raise instead of a value. */
module PyJson {

  datatype Option<+T> = None | Some(value: T)

  datatype Result<+T, +E> = Ok(value: T) | Err(error: E)

  /** A value produced by Python's `json` decoder (floating-point numbers are not modelled). */
  datatype Json =
    | JNull
    | JBool(b: bool)
    | JInt(i: int)
    | JStr(s: string)
    | JList(items: seq<Json>)
    | JObj(fields: map<string, Json>)

  /** The Python exceptions the export can raise while looking into a payload. */
  datatype PyError =
    | KeyError           // missing key in a dict
    | TypeError          // subscripting or iterating a value that does not support it
    | AttributeError     // `.get` or `.splitlines` on a value that has no such method
    | IndexError         // `[0]` on an empty list or string
    | ValueError         // `list.remove` of an absent value
    | UnboundLocalError  // reading a local variable that was never assigned

  /** `j[key]` with a string key: only a dict supports it. */
  function Subscript(j: Json, key: string): (r: Result<Json, PyError>)
    ensures r.Ok? <==> j.JObj? && key in j.fields
    ensures r.Ok? ==> r.value == j.fields[key]
    ensures j.JObj? && key !in j.fields ==> r == Err(KeyError)
    ensures !j.JObj? ==> r == Err(TypeError)
  {
    match j
    case JObj(fields) => if key in fields then Ok(fields[key]) else Err(KeyError)
    case _ => Err(TypeError)
  }

  /** `j.get(key, default)`: only a dict has a `get` method. */
  function Get(j: Json, key: string, default: Json): (r: Result<Json, PyError>)
    ensures r.Ok? <==> j.JObj?
    ensures j.JObj? && key in j.fields ==> r == Ok(j.fields[key])
    ensures j.JObj? && key !in j.fields ==> r == Ok(default)
    ensures !j.JObj? ==> r == Err(AttributeError)
  {
    match j
    case JObj(fields) => Ok(if key in fields then fields[key] else default)
    case _ => Err(AttributeError)
  }

  /** `j[0]`: the first element of a list, the first character of a string; a dict
      looks the integer key 0 up, which a JSON object never has. */
  function First(j: Json): (r: Result<Json, PyError>)
    ensures r == Err(IndexError) <==> j == JList([]) || j == JStr("")
    ensures r.Ok? <==> (j.JList? && |j.items| > 0) || (j.JStr? && |j.s| > 0)
    ensures j.JList? && |j.items| > 0 ==> r == Ok(j.items[0])
  {
    match j
    case JList(items) => if |items| == 0 then Err(IndexError) else Ok(items[0])
    case JStr(s) => if |s| == 0 then Err(IndexError) else Ok(JStr([s[0]]))
    case JObj(_) => Err(KeyError)
    case _ => Err(TypeError)
  }

  function DigitChar(d: nat): char
    requires d < 10
  {
    "0123456789"[d]
  }

  /** The decimal digits of a natural number, most significant first. */
  function Decimal(n: nat): (r: string)
    ensures |r| > 0
    ensures forall i :: 0 <= i < |r| ==> '0' <= r[i] <= '9'
  {
    if n < 10 then [DigitChar(n)] else Decimal(n / 10) + [DigitChar(n % 10)]
  }

  /** The number a string of decimal digits denotes, most significant digit first. */
  function DigitsValue(s: string): nat
    requires forall i :: 0 <= i < |s| ==> '0' <= s[i] <= '9'
  {
    if s == [] then 0
    else DigitsValue(s[..|s| - 1]) * 10 + (s[|s| - 1] as int - '0' as int)
  }

  /** Decimal spells n: reading its digits back gives n. */
  lemma {:induction false} DecimalValue(n: nat)
    ensures DigitsValue(Decimal(n)) == n
    decreases n
  {
    var r := Decimal(n);
    if n < 10 {
      assert r == [DigitChar(n)] && r[..0] == [];
    } else {
      DecimalValue(n / 10);
      assert r[..|r| - 1] == Decimal(n / 10);
    }
    assert "0123456789"[n % 10] as int - '0' as int == n % 10;
  }

  /** Distinct natural numbers have distinct spellings. */
  lemma DecimalInjective(m: nat, n: nat)
    requires Decimal(m) == Decimal(n)
    ensures m == n
  {
    DecimalValue(m);
    DecimalValue(n);
  }

  /** `str` of an integer: a minus sign only for a negative one, then its digits. */
  lemma StrInt(a: int)
    ensures a < 0 ==> |Str(JInt(a))| > 0 && Str(JInt(a))[0] == '-' && Str(JInt(a))[1..] == Decimal(-a)
    ensures a >= 0 ==> Str(JInt(a)) == Decimal(a) && Str(JInt(a))[0] != '-'
  {
    var s := Str(JInt(a));
    if a < 0 {
      var d := Decimal(-a);
      assert s == "-" + d;
      assert s[1..] == d;
    } else {
      assert s == Decimal(a);
    }
  }

  /** Distinct integer ids give distinct SR numbers. */
  lemma StrIntInjective(a: int, b: int)
    requires Str(JInt(a)) == Str(JInt(b))
    ensures a == b
  {
    var s := Str(JInt(a));
    StrInt(a);
    StrInt(b);
    if a < 0 && b < 0 {
      assert Decimal(-a) == s[1..] == Decimal(-b);
      DecimalInjective(-a, -b);
    } else if a >= 0 && b >= 0 {
      assert Decimal(a) == s == Decimal(b);
      DecimalInjective(a, b);
    }
  }

  /** `str(j)` for the scalar values a ticket id can be. A JSON array or object id
      is rendered as a fixed placeholder. */
  function Str(j: Json): (r: string)
    ensures j.JStr? ==> r == j.s
    ensures j.JInt? && j.i >= 0 ==> r == Decimal(j.i)
  {
    match j
    case JNull => "None"
    case JBool(b) => if b then "True" else "False"
    case JInt(i) => if i < 0 then "-" + Decimal(-i) else Decimal(i)
    case JStr(s) => s
    case JList(_) => "<list>"
    case JObj(_) => "<dict>"
  }
}

=== FILE: pages.dfy ===
/** Page enumeration and the selection of service requests from a page of tickets
    (FetchReplacementData.py, lines 130-138 and 163-166). */
module Pagination {
  import opened PyJson
  import opened Api

  /** The last page the export asks for: `range(301)` with 0 removed. */
  const LastPage: int := 300

  /** Index of the first occurrence of v in s. */
  function FirstIndex(s: seq<int>, v: int): (i: nat)
    requires v in s
    ensures i < |s| && s[i] == v && v !in s[..i]
  {
    if s[0] == v then 0
    else
      var i := 1 + FirstIndex(s[1..], v);
      assert s[..i] == [s[0]] + s[1..][..i - 1];
      i
  }

  /** Python's `list.remove(v)`: drops the first occurrence of v, ValueError when absent. */
  function RemoveFirst(s: seq<int>, v: int): (r: Result<seq<int>, PyError>)
    ensures r.Ok? <==> v in s
    ensures r.Err? ==> r.error == ValueError
    ensures r.Ok? ==> var i := FirstIndex(s, v); r.value == s[..i] + s[i + 1..]
  {
    if s == [] then Err(ValueError)
    else if s[0] == v then Ok(s[1..])
    else
      match RemoveFirst(s[1..], v)
      case Err(e) => Err(e)
      case Ok(rest) =>
        var i := FirstIndex(s[1..], v);
        assert s[..i + 1] == [s[0]] + s[1..][..i];
        assert [s[0]] + rest == s[..i + 1] + s[i + 2..];
        Ok([s[0]] + rest)
  }

  /** Pages 1..n in order. */
  function PageNumbers(n: nat): (pages: seq<int>)
    ensures |pages| == n && forall i :: 0 <= i < n ==> pages[i] == i + 1
  {
    seq(n, i => i + 1)
  }

  /** `pageList`: 0..300 appended in turn, then 0 removed. */
  method PageList() returns (pages: seq<int>)
    ensures |pages| == LastPage
    ensures forall i :: 0 <= i < |pages| ==> pages[i] == i + 1
    ensures pages == PageNumbers(LastPage)
  {
    var pageList: seq<int> := [];
    for x := 0 to LastPage + 1
      invariant |pageList| == x
      invariant forall i :: 0 <= i < x ==> pageList[i] == i
    {
      pageList := pageList + [x];
    }
    var removed := RemoveFirst(pageList, 0);
    assert pageList[0] == 0;
    pages := removed.value;
    assert pages == pageList[1..];
    assert forall i :: 0 <= i < |pages| ==> pages[i] == PageNumbers(LastPage)[i];
  }

  /** `isinstance(ticket, dict) and ticket.get("type") == "Service Request"`. */
  predicate IsServiceRequest(t: Json) {
    t.JObj? && "type" in t.fields && t.fields["type"] == JStr("Service Request")
  }

  /** The service-request tickets of a list, in list order. */
  function ServiceRequests(tickets: seq<Json>): (r: seq<Json>)
    ensures forall k :: 0 <= k < |r| ==> IsServiceRequest(r[k])
    ensures |r| <= |tickets|
  {
    if tickets == [] then []
    else
      var init := tickets[..|tickets| - 1];
      var last := tickets[|tickets| - 1];
      assert tickets == init + [last];
      ServiceRequests(init) + (if IsServiceRequest(last) then [last] else [])
  }

  /** Selection distributes over concatenation, so the selected tickets keep their order. */
  lemma {:induction false} ServiceRequestsAppend(a: seq<Json>, b: seq<Json>)
    ensures ServiceRequests(a + b) == ServiceRequests(a) + ServiceRequests(b)
    decreases |b|
  {
    if b == [] {
      assert a + b == a;
    } else {
      var b' := b[..|b| - 1];
      assert (a + b)[..|a + b| - 1] == a + b';
      ServiceRequestsAppend(a, b');
    }
  }

  /** Exactly the service requests of the list are selected. */
  lemma {:induction false} ServiceRequestsMembers(tickets: seq<Json>)
    ensures forall t :: t in ServiceRequests(tickets) <==> t in tickets && IsServiceRequest(t)
    decreases |tickets|
  {
    if tickets != [] {
      var init := tickets[..|tickets| - 1];
      assert tickets == init + [tickets[|tickets| - 1]];
      ServiceRequestsMembers(init);
    }
  }

  /** Selecting from a prefix of the list gives a prefix of the selection. */
  lemma {:induction false} SelectionOfPrefix(tickets: seq<Json>, i: nat)
    requires i <= |tickets|
    ensures ServiceRequests(tickets[..i]) <= ServiceRequests(tickets)
  {
    assert tickets[..i] + tickets[i..] == tickets;
    ServiceRequestsAppend(tickets[..i], tickets[i..]);
    var a, b := ServiceRequests(tickets[..i]), ServiceRequests(tickets[i..]);
    assert ServiceRequests(tickets) == a + b;
    assert (a + b)[..|a|] == a;
  }

  lemma {:induction false} SelectionStep(tickets: seq<Json>, i: nat)
    requires i < |tickets|
    ensures ServiceRequests(tickets[..i + 1]) ==
      ServiceRequests(tickets[..i]) + (if IsServiceRequest(tickets[i]) then [tickets[i]] else [])
  {
    assert tickets[..i + 1][..i] == tickets[..i];
  }

  /** The ids lines 163-166 collect from `data`, or the exception the loop raises. */
  function ServiceRequestIds(data: Json): Result<seq<Json>, PyError> {
    match data
    case JList(items) =>
      var selected := ServiceRequests(items);
      if forall k :: 0 <= k < |selected| ==> "id" in selected[k].fields
      then Ok(seq(|selected|, k requires 0 <= k < |selected| && "id" in selected[k].fields => selected[k].fields["id"]))
      else Err(KeyError)
    case JObj(_) => Ok([])
    case JStr(_) => Ok([])
    case _ => Err(TypeError)
  }

  lemma IdsCollected(tickets: seq<Json>, ids: seq<Json>)
    requires var selected := ServiceRequests(tickets);
      && |ids| == |selected|
      && forall k :: 0 <= k < |selected| ==> "id" in selected[k].fields && ids[k] == selected[k].fields["id"]
    ensures ServiceRequestIds(JList(tickets)) == Ok(ids)
  {
    var selected := ServiceRequests(tickets);
    assert ids == seq(|selected|, k requires 0 <= k < |selected| && "id" in selected[k].fields => selected[k].fields["id"]);
  }

  lemma IdMissing(tickets: seq<Json>, k: nat)
    requires k < |ServiceRequests(tickets)| && "id" !in ServiceRequests(tickets)[k].fields
    ensures ServiceRequestIds(JList(tickets)) == Err(KeyError)
  {
  }

  /** The loop that fills `service_request_ids` from `data`. Iterating a dict visits its
      keys and iterating a string its characters, neither of which is a dict, so both give
      no ids; any other value is not iterable. `ticket["id"]` raises KeyError for a service
      request without an id. */
  method CollectServiceRequestIds(data: Json) returns (r: Result<seq<Json>, PyError>)
    ensures data.JList? ==>
      var selected := ServiceRequests(data.items);
      r.Ok? <==> forall k :: 0 <= k < |selected| ==> "id" in selected[k].fields
    ensures data.JList? && r.Ok? ==>
      var selected := ServiceRequests(data.items);
      |r.value| == |selected| &&
      forall k :: 0 <= k < |selected| ==> r.value[k] == selected[k].fields["id"]
    ensures data.JList? && r.Err? ==> r.error == KeyError
    ensures data.JObj? || data.JStr? ==> r == Ok([])
    ensures !(data.JList? || data.JObj? || data.JStr?) ==> r == Err(TypeError)
    ensures r == ServiceRequestIds(data)
  {
    if data.JObj? || data.JStr? {
      return Ok([]);
    }
    if !data.JList? {
      return Err(TypeError);
    }
    var tickets := data.items;
    var ids: seq<Json> := [];
    ghost var selected: seq<Json> := [];
    var i := 0;
    while i < |tickets|
      invariant 0 <= i <= |tickets|
      invariant selected == ServiceRequests(tickets[..i])
      invariant forall k :: 0 <= k < |selected| ==> "id" in selected[k].fields
      invariant |ids| == |selected|
      invariant forall k :: 0 <= k < |ids| ==> ids[k] == selected[k].fields["id"]
    {
      var ticket := tickets[i];
      SelectionStep(tickets, i);
      if ticket.JObj? && "type" in ticket.fields && ticket.fields["type"] == JStr("Service Request") {
        if "id" !in ticket.fields {
          SelectionOfPrefix(tickets, i + 1);
          assert ServiceRequests(tickets)[|selected|] == ticket;
          IdMissing(tickets, |selected|);
          return Err(KeyError);
        }
        ids := ids + [ticket.fields["id"]];
      }
      selected := ServiceRequests(tickets[..i + 1]);
      i := i + 1;
    }
    assert tickets[..i] == tickets;
    IdsCollected(tickets, ids);
    r := Ok(ids);
  }

  /** Lines 149-166 for one page: the value `data` holds once the ticket-list response
      is read, and the service-request ids taken from it, or how the run ends there.
      A 200 answer must decode (else the JSONDecodeError handler exits) and have a
      `tickets` key; any other status leaves `data` as it was, which raises
      UnboundLocalError when nothing was ever assigned to it. */
  function PageCandidates(response: Response, data0: Option<Json>): (c: Result<(Json, seq<Json>), Stop>)
    ensures response.status == 200 && response.body.Unparseable? ==> c == Err(DecodeExit)
    ensures c.Ok? && response.status == 200 ==>
      response.body.Parsed? && Subscript(response.body.json, "tickets") == Ok(c.value.0)
    ensures c.Ok? && response.status != 200 ==> data0 == Some(c.value.0)
    ensures c.Ok? ==> ServiceRequestIds(c.value.0) == Ok(c.value.1)
    ensures response.status == 200 && response.body.Parsed? ==>
      var tickets := Subscript(response.body.json, "tickets");
      && (c.Ok? <==> tickets.Ok? && ServiceRequestIds(tickets.value).Ok?)
      && (tickets.Err? ==> c == Err(Uncaught(tickets.error)))
      && (tickets.Ok? && ServiceRequestIds(tickets.value).Err? ==>
            c == Err(Uncaught(ServiceRequestIds(tickets.value).error)))
  {
    var data: Result<Option<Json>, Stop> :=
      if response.status != 200 then Ok(data0)
      else match response.body
        case Unparseable => Err(DecodeExit)
        case Parsed(payload) =>
          match Subscript(payload, "tickets")
          case Err(e) => Err(Uncaught(e))
          case Ok(tickets) => Ok(Some(tickets));
    match data
    case Err(stop) => Err(stop)
    case Ok(None) => Err(Uncaught(UnboundLocalError))
    case Ok(Some(d)) =>
      match ServiceRequestIds(d)
      case Err(e) => Err(Uncaught(e))
      case Ok(ids) => Ok((d, ids))
  }

  /** A page answered with 200 whose `tickets` value is a list: `data` becomes that list,
      and the tickets examined are exactly its service requests' ids, in list order; a
      service request without an id ends the run with KeyError. */
  lemma PageOfTickets(response: Response, data0: Option<Json>, tickets: seq<Json>)
    requires response.status == 200 && response.body.Parsed?
    requires Subscript(response.body.json, "tickets") == Ok(JList(tickets))
    ensures var selected := ServiceRequests(tickets);
      var c := PageCandidates(response, data0);
      && (c.Ok? <==> forall k :: 0 <= k < |selected| ==> "id" in selected[k].fields)
      && (c.Ok? ==>
            && c.value.0 == JList(tickets) && |c.value.1| == |selected|
            && forall k :: 0 <= k < |selected| ==> c.value.1[k] == selected[k].fields["id"])
      && (c.Err? ==> c.error == Uncaught(KeyError))
  {
  }

  /** A page answered with 200 whose `tickets` value is a dict or a string: iterating it
      yields keys or characters, none of them a service request, so the page examines no
      ticket and the run goes on with `data` holding that value. */
  lemma PageOfNoTickets(response: Response, data0: Option<Json>)
    requires response.status == 200 && response.body.Parsed?
    requires var tickets := Subscript(response.body.json, "tickets");
      tickets.Ok? && (tickets.value.JObj? || tickets.value.JStr?)
    ensures PageCandidates(response, data0) == Ok((Subscript(response.body.json, "tickets").value, []))
  {
  }

  /** A page answered with another status reuses `data`: UnboundLocalError on the first
      such page of a run, otherwise the ids of whatever `data` last held. */
  lemma StalePage(response: Response, data0: Option<Json>)
    requires response.status != 200
    ensures data0.None? ==> PageCandidates(response, data0) == Err(Uncaught(UnboundLocalError))
    ensures data0.Some? && ServiceRequestIds(data0.value).Ok? ==>
      PageCandidates(response, data0) == Ok((data0.value, ServiceRequestIds(data0.value).value))
    ensures data0.Some? && ServiceRequestIds(data0.value).Err? ==>
      PageCandidates(response, data0) == Err(Uncaught(ServiceRequestIds(data0.value).error))
  {
  }

  /** Reads one page's ticket list (lines 149-166). */
  method PageServiceRequests(response: Response, data0: Option<Json>) returns (r: Result<(Json, seq<Json>), Stop>)
    ensures r == PageCandidates(response, data0)
  {
    var data := data0;
    if response.status == 200 {
      if response.body.Unparseable? {
        return Err(DecodeExit);
      }
      var tickets := Subscript(response.body.json, "tickets");
      if tickets.Err? {
        return Err(Uncaught(tickets.error));
      }
      data := Some(tickets.value);
    }
    if data.None? {
      return Err(Uncaught(UnboundLocalError));
    }
    var ids := CollectServiceRequestIds(data.value);
    if ids.Err? {
      return Err(Uncaught(ids.error));
    }
    return Ok((data.value, ids.value));
  }
}

=== FILE: preferences.dfy ===
/** The start-up dialogue that merges the operator's answers into the stored
    preferences (FetchReplacementData.py, lines 24-41). Reading the JSON preference
    file and the keyboard are outside the model: the stored preferences and the
    typed answers, one per question in order, are parameters. */
module Preferences {

  /** The question keys, in the order the operator is asked. */
  const Questions: seq<string> := ["freshserviceBaseURL", "apiKey", "days", "ai", "model"]

  lemma QuestionsDistinct()
    ensures forall i, j :: 0 <= i < j < |Questions| ==> Questions[i] != Questions[j]
  {
  }

  /** The dialogue loop. For each question key in turn: a stored answer is kept when the
      operator types nothing and replaced otherwise; a key with no stored answer takes
      whatever is typed, even nothing. Keys that are not questions are left as they were. */
  method MergeAnswers(userData: map<string, string>, typed: seq<string>)
    returns (merged: map<string, string>)
    requires |typed| == |Questions|
    ensures forall i :: 0 <= i < |Questions| ==>
      Questions[i] in merged &&
      merged[Questions[i]] == (if Questions[i] in userData && typed[i] == "" then userData[Questions[i]] else typed[i])
    ensures forall k :: k !in Questions ==>
      (k in merged <==> k in userData) && (k in userData ==> merged[k] == userData[k])
  {
    QuestionsDistinct();
    merged := userData;
    for i := 0 to |Questions|
      invariant forall j :: 0 <= j < i ==>
        Questions[j] in merged &&
        merged[Questions[j]] == (if Questions[j] in userData && typed[j] == "" then userData[Questions[j]] else typed[j])
      invariant forall k :: k !in Questions[..i] ==>
        (k in merged <==> k in userData) && (k in userData ==> merged[k] == userData[k])
    {
      var key := Questions[i];
      assert key !in Questions[..i];
      if key in merged {
        var newValue := typed[i];
        if newValue != "" {
          merged := merged[key := newValue];
        }
      } else {
        merged := merged[key := typed[i]];
      }
      assert Questions[..i + 1] == Questions[..i] + [key];
    }
    assert Questions[..|Questions|] == Questions;
  }

  /** The AI switch as every later step reads it: `user_data["ai"] == "yes"`. */
  predicate AiEnabled(prefs: map<string, string>)
    requires "ai" in prefs
  {
    prefs["ai"] == "yes"
  }
}

=== FILE: text.dfy ===
/** The per-row text handling of the CSV writer (FetchReplacementData.py, lines 255
    and 264-268): the description is put on one line with
    `' '.join(description.splitlines())`, and after an encoding failure the character
    at the failing index is overwritten with a space. */
module LineText {

  /** The characters Python's `str.splitlines` ends a line at; "\r\n" counts as one break. */
  predicate IsLineBreak(c: char) {
    c == '\n' || c == '\r' || c == '\U{0B}' || c == '\U{0C}' || c == '\U{1C}' || c == '\U{1D}' ||
    c == '\U{1E}' || c == '\U{85}' || c == '\U{2028}' || c == '\U{2029}'
  }

  predicate NoBreaks(s: string) {
    forall i :: 0 <= i < |s| ==> !IsLineBreak(s[i])
  }

  /** Index of the first line break of `s`, or |s| when there is none. */
  function FirstBreak(s: string): (k: nat)
    ensures k <= |s|
    ensures NoBreaks(s[..k])
    ensures k < |s| ==> IsLineBreak(s[k])
  {
    if s == [] then 0
    else if IsLineBreak(s[0]) then 0
    else
      var k := 1 + FirstBreak(s[1..]);
      assert s[..k] == [s[0]] + s[1..][..k - 1];
      k
  }

  /** Length of the break that starts at index k: two for "\r\n", one otherwise. */
  function BreakWidth(s: string, k: nat): nat
    requires k < |s|
  {
    if s[k] == '\r' && k + 1 < |s| && s[k + 1] == '\n' then 2 else 1
  }

  /** Python's `str.splitlines()` without `keepends`: the text between breaks, where a
      break at the very end does not open an empty last line. */
  function SplitLines(s: string): (lines: seq<string>)
    ensures forall i :: 0 <= i < |lines| ==> NoBreaks(lines[i])
    ensures s != [] <==> lines != []
    decreases |s|
  {
    if s == [] then []
    else
      var k := FirstBreak(s);
      if k == |s| then (assert s[..k] == s; [s])
      else [s[..k]] + SplitLines(s[k + BreakWidth(s, k)..])
  }

  /** Python's `sep.join(lines)`. */
  function Join(sep: string, lines: seq<string>): string {
    if |lines| == 0 then ""
    else if |lines| == 1 then lines[0]
    else lines[0] + sep + Join(sep, lines[1..])
  }

  /** `formattedString`: the description with its lines joined by single spaces. */
  function OneLine(description: string): string {
    Join(" ", SplitLines(description))
  }

  // An independent description of the same text: every break becomes one space,
  // except a break that ends the text, which is dropped.

  function ReplaceBreaks(s: string): (r: string)
    ensures |r| <= |s|
    decreases |s|
  {
    if s == [] then []
    else if IsLineBreak(s[0]) then " " + ReplaceBreaks(s[BreakWidth(s, 0)..])
    else [s[0]] + ReplaceBreaks(s[1..])
  }

  lemma {:induction false} ReplaceBreaksHasNoBreaks(s: string)
    ensures NoBreaks(ReplaceBreaks(s))
    decreases |s|
  {
    if s != [] {
      if IsLineBreak(s[0]) {
        ReplaceBreaksHasNoBreaks(s[BreakWidth(s, 0)..]);
      } else {
        ReplaceBreaksHasNoBreaks(s[1..]);
      }
    }
  }

  function DropFinalBreak(s: string): string {
    if |s| >= 2 && s[|s| - 2] == '\r' && s[|s| - 1] == '\n' then s[..|s| - 2]
    else if |s| >= 1 && IsLineBreak(s[|s| - 1]) then s[..|s| - 1]
    else s
  }

  /** p's last character and q's first would form a "\r\n" pair. */
  predicate Glued(p: string, q: string) {
    |p| > 0 && |q| > 0 && p[|p| - 1] == '\r' && q[0] == '\n'
  }

  lemma {:induction false} ReplaceBreaksIdentity(s: string)
    requires NoBreaks(s)
    ensures ReplaceBreaks(s) == s
    decreases |s|
  {
    if s != [] {
      ReplaceBreaksIdentity(s[1..]);
    }
  }

  lemma NotGluedSuffix(p: string, q: string, w: nat)
    requires w <= |p| && !Glued(p, q)
    ensures !Glued(p[w..], q)
  {
    if |p| > w {
      assert p[w..][|p[w..]| - 1] == p[|p| - 1];
    }
  }

  /** p + q starts as p does, with the same break width when it starts with a break. */
  lemma SameFirstBreak(p: string, q: string)
    requires p != [] && !Glued(p, q)
    ensures (p + q)[0] == p[0]
    ensures IsLineBreak(p[0]) ==>
      BreakWidth(p + q, 0) == BreakWidth(p, 0) && (p + q)[BreakWidth(p, 0)..] == p[BreakWidth(p, 0)..] + q
    ensures (p + q)[1..] == p[1..] + q
  {
    if |p| >= 2 {
      assert (p + q)[1] == p[1];
    }
  }

  lemma {:induction false} ReplaceBreaksAppend(p: string, q: string)
    requires !Glued(p, q)
    ensures ReplaceBreaks(p + q) == ReplaceBreaks(p) + ReplaceBreaks(q)
    decreases |p|
  {
    if p == [] {
      assert p + q == q;
      return;
    }
    var w := if IsLineBreak(p[0]) then BreakWidth(p, 0) else 1;
    SameFirstBreak(p, q);
    NotGluedSuffix(p, q, w);
    ReplaceBreaksAppend(p[w..], q);
  }

  lemma DropFinalBreakAppend(p: string, q: string)
    requires |q| > 0 && !Glued(p, q)
    ensures DropFinalBreak(p + q) == p + DropFinalBreak(q)
  {
    var s := p + q;
    assert s[|s| - 1] == q[|q| - 1];
    if |q| >= 2 {
      assert s[|s| - 2] == q[|q| - 2];
      assert s[..|s| - 2] == p + q[..|q| - 2];
    }
    assert s[..|s| - 1] == p + q[..|q| - 1];
  }

  /** A line followed by a single break, "\r\n" included, becomes the line and one space. */
  lemma LineThenBreak(line: string, brk: string)
    requires NoBreaks(line)
    requires |brk| >= 1 && IsLineBreak(brk[0]) && BreakWidth(brk, 0) == |brk|
    ensures ReplaceBreaks(line + brk) == line + " "
  {
    ReplaceBreaksIdentity(line);
    assert brk[|brk|..] == [];
    assert ReplaceBreaks(brk) == " ";
    assert !Glued(line, brk) by {
      if |line| > 0 {
        assert !IsLineBreak(line[|line| - 1]);
      }
    }
    ReplaceBreaksAppend(line, brk);
  }

  lemma DropFinalBreakIsPrefix(s: string)
    ensures DropFinalBreak(s) <= s
  {
  }

  /** A line and a single break that ends the text: the line alone. */
  lemma CollapseFinalLine(line: string, brk: string)
    requires NoBreaks(line)
    requires |brk| >= 1 && IsLineBreak(brk[0]) && BreakWidth(brk, 0) == |brk|
    ensures ReplaceBreaks(DropFinalBreak(line + brk)) == line
  {
    var s := line + brk;
    if |brk| == 2 {
      assert s[|s| - 2] == '\r' && s[|s| - 1] == '\n';
    } else {
      assert s[|s| - 1] == brk[0];
    }
    assert DropFinalBreak(s) == line;
    ReplaceBreaksIdentity(line);
  }

  /** A line, its break and more text: the line, one space, then the rest collapsed. */
  lemma CollapseAfterLine(line: string, brk: string, rest: string)
    requires NoBreaks(line)
    requires |brk| >= 1 && IsLineBreak(brk[0]) && BreakWidth(brk, 0) == |brk|
    requires rest != [] && !Glued(brk, rest)
    ensures ReplaceBreaks(DropFinalBreak(line + brk + rest)) == line + " " + ReplaceBreaks(DropFinalBreak(rest))
  {
    var first := line + brk;
    assert !Glued(first, rest) by {
      assert first[|first| - 1] == brk[|brk| - 1];
    }
    DropFinalBreakAppend(first, rest);
    var tail := DropFinalBreak(rest);
    DropFinalBreakIsPrefix(rest);
    assert !Glued(first, tail) by {
      assert tail != [] ==> tail[0] == rest[0];
    }
    ReplaceBreaksAppend(first, tail);
    LineThenBreak(line, brk);
  }

  /** A text with a break is its first line, that break, and the rest; its joined lines
      are the first line, then a space and the rest's joined lines when there is a rest. */
  lemma SplitAtFirstBreak(s: string) returns (line: string, brk: string, rest: string)
    requires !NoBreaks(s)
    ensures s == line + brk + rest
    ensures NoBreaks(line) && |brk| >= 1 && IsLineBreak(brk[0]) && BreakWidth(brk, 0) == |brk|
    ensures rest != [] ==> !Glued(brk, rest)
    ensures OneLine(s) == if rest == [] then line else line + " " + OneLine(rest)
  {
    var k := FirstBreak(s);
    assert s[..|s|] == s;
    var w := BreakWidth(s, k);
    line, brk, rest := s[..k], s[k..k + w], s[k + w..];
    assert s == line + brk + rest;
    assert brk[0] == s[k];
    assert BreakWidth(brk, 0) == w by {
      if w == 2 {
        assert brk[1] == s[k + 1];
      }
    }
    if rest != [] {
      assert brk[w - 1] == s[k + w - 1];
      assert rest[0] == s[k + w];
      var lines := SplitLines(rest);
      assert SplitLines(s) == [line] + lines;
      assert lines != [];
      assert Join(" ", [line] + lines) == line + " " + Join(" ", lines);
    } else {
      assert SplitLines(s) == [line];
    }
  }

  /** Joining the split lines with spaces is the same as turning every break into a
      space and dropping one break at the very end. */
  lemma {:induction false} OneLineIsCollapsedBreaks(s: string)
    ensures OneLine(s) == ReplaceBreaks(DropFinalBreak(s))
    decreases |s|
  {
    if NoBreaks(s) {
      OneLineKeepsSingleLine(s);
      ReplaceBreaksIdentity(s);
      assert s == [] || !IsLineBreak(s[|s| - 1]);
    } else {
      var line, brk, rest := SplitAtFirstBreak(s);
      if rest == [] {
        CollapseFinalLine(line, brk);
      } else {
        OneLineIsCollapsedBreaks(rest);
        CollapseAfterLine(line, brk, rest);
      }
    }
  }

  /** The written description never contains a line break. */
  lemma OneLineHasNoBreaks(s: string)
    ensures NoBreaks(OneLine(s))
  {
    OneLineIsCollapsedBreaks(s);
    ReplaceBreaksHasNoBreaks(DropFinalBreak(s));
  }

  /** A description already on one line is written unchanged. */
  lemma OneLineKeepsSingleLine(s: string)
    requires NoBreaks(s)
    ensures OneLine(s) == s
  {
    if s != [] {
      assert FirstBreak(s) == |s|;
      assert s[..|s|] == s;
      assert SplitLines(s) == [s];
    }
  }

  /** `s[:i] + ' ' + s[i + 1:]`: the text with its i-th character overwritten by a space. */
  function Splice(s: string, i: nat): (r: string)
    requires i < |s|
    ensures |r| == |s| && r[i] == ' '
    ensures forall j :: 0 <= j < |s| && j != i ==> r[j] == s[j]
  {
    s[..i] + " " + s[i + 1..]
  }
}

=== FILE: tickets.dfy ===
/** The ticket loop of `fetchReplacementData` (FetchReplacementData.py, lines 172-238):
    for each candidate service request, fetch its requested items, keep it only when the
    first item is the replacement item, and append one value to each of twelve
    parallel lists. */
module Tickets {
  import opened PyJson
  import opened Api

  /** The `service_item_id` of the replacement catalogue item. */
  const ReplacementItemId: int := 47

  /** The custom fields and creation time read from an accepted requested item. */
  datatype ItemFields = ItemFields(
    asset: Json, description: Json, building: Json, username: Json,
    technician: Json, date: Json, item: Json, model: Json)

  /** What the requested-items response of one ticket leads to. */
  datatype Verdict =
    | Unavailable                                // status other than 200: reported, nothing else
    | NoItems                                    // `[0]` raised IndexError: skipped
    | NotReplacement(first: Json)                // first item is some other catalogue item
    | Replacement(first: Json, fields: ItemFields)

  /** One exported record, fields in the order of the CSV columns. */
  datatype Record = Record(
    date: Json, item: Json, category: Json, subCategory: Json, itemCategory: Json,
    model: Json, building: Json, srNumber: Json, technician: Json, asset: Json,
    username: Json, description: Json)

  /** `custom_fields.get(key)` on a dict. */
  function Field(customFields: Json, key: string): Json
    requires customFields.JObj?
  {
    if key in customFields.fields then customFields.fields[key] else JNull
  }

  /** The `requested_items` value of a 200 response whose payload is a dict holding it. */
  function ItemsValue(resp: Response): Option<Json> {
    if resp.status == 200 && resp.body.Parsed? && resp.body.json.JObj? && "requested_items" in resp.body.json.fields
    then Some(resp.body.json.fields["requested_items"])
    else None
  }

  /** The ticket is a replacement: a 200 response, a non-empty item list, a first item
      whose `service_item_id` is 47 and whose `custom_fields`, when present, is a dict. */
  predicate Accepts(resp: Response) {
    match ItemsValue(resp)
    case None => false
    case Some(list) =>
      list.JList? && |list.items| > 0 &&
      var first := list.items[0];
      first.JObj? && "service_item_id" in first.fields &&
      first.fields["service_item_id"] == JInt(ReplacementItemId) &&
      ("custom_fields" in first.fields ==> first.fields["custom_fields"].JObj?)
  }

  /** The ticket has no requested item: `[0]` of an empty list (or string) raises IndexError. */
  predicate HasNoItems(resp: Response) {
    ItemsValue(resp) == Some(JList([])) || ItemsValue(resp) == Some(JStr(""))
  }

  /** The ticket's first requested item is a dict for some other catalogue item. */
  predicate IsOtherItem(resp: Response) {
    match ItemsValue(resp)
    case None => false
    case Some(list) =>
      list.JList? && |list.items| > 0 &&
      var first := list.items[0];
      first.JObj? &&
      ("service_item_id" !in first.fields || first.fields["service_item_id"] != JInt(ReplacementItemId))
  }

  /** Lines 194-211: the requested-items response of one ticket, decoded inside the
      `try` whose JSONDecodeError handler exits and whose IndexError handler skips the
      ticket; every other exception is uncaught. */
  function ExamineItems(resp: Response): (r: Result<Verdict, Stop>)
    ensures resp.status != 200 ==> r == Ok(Unavailable)
    ensures resp.status == 200 && resp.body.Unparseable? ==> r == Err(DecodeExit)
  {
    if resp.status != 200 then Ok(Unavailable)
    else match resp.body
      case Unparseable => Err(DecodeExit)
      case Parsed(payload) =>
        match Subscript(payload, "requested_items")
        case Err(e) => Err(Uncaught(e))
        case Ok(list) =>
          match First(list)
          case Err(e) => if e == IndexError then Ok(NoItems) else Err(Uncaught(e))
          case Ok(first) =>
            match Get(first, "service_item_id", JNull)
            case Err(e) => Err(Uncaught(e))
            case Ok(serviceItem) =>
              if serviceItem != JInt(ReplacementItemId) then Ok(NotReplacement(first))
              else
                var customFields := if "custom_fields" in first.fields then first.fields["custom_fields"] else JObj(map[]);
                if !customFields.JObj? then Err(Uncaught(AttributeError))
                else Ok(Replacement(first, ItemFields(
                  Field(customFields, "asset"), Field(customFields, "full_issue_description"),
                  Field(customFields, "building"), Field(customFields, "student_username"),
                  Field(customFields, "technician_initials"),
                  if "created_at" in first.fields then first.fields["created_at"] else JNull,
                  Field(customFields, "item"), Field(customFields, "model"))))
  }

  /** Which responses lead to which verdict: a replacement exactly when Accepts holds, a
      skip for an empty item list, another item when the first item is a dict for a
      different catalogue id, and nothing to examine exactly when the status is not 200.
      A 200 response that is none of these ends the run: through the decode handler when
      it does not parse, and with an uncaught exception otherwise. */
  lemma ExamineItemsVerdicts(resp: Response)
    ensures var r := ExamineItems(resp);
      && (r.Ok? && r.value.Replacement? <==> Accepts(resp))
      && (r == Ok(NoItems) <==> HasNoItems(resp))
      && (r.Ok? && r.value.NotReplacement? <==> IsOtherItem(resp))
      && (r.Ok? && (r.value.Replacement? || r.value.NotReplacement?) ==>
            ItemsValue(resp).Some? && ItemsValue(resp).value.JList? && |ItemsValue(resp).value.items| > 0 &&
            r.value.first == ItemsValue(resp).value.items[0])
    ensures var r := ExamineItems(resp);
      && (r == Ok(Unavailable) <==> resp.status != 200)
      && (resp.status == 200 ==> (r.Ok? <==> Accepts(resp) || HasNoItems(resp) || IsOtherItem(resp)))
      && (r.Err? && resp.body.Parsed? ==> r.error.Uncaught?)
  {
  }

  /** Lines 212-221: category, sub-category and item category from the ticket-detail
      response; three empty strings when its status is not 200. */
  function Categories(resp: Response): (r: Result<(Json, Json, Json), Stop>)
    ensures resp.status != 200 ==> r == Ok((JStr(""), JStr(""), JStr("")))
    ensures resp.status == 200 ==>
      (r.Ok? <==>
        resp.body.Parsed? && resp.body.json.JObj? && "ticket" in resp.body.json.fields &&
        var t := resp.body.json.fields["ticket"];
        t.JObj? && "category" in t.fields && "sub_category" in t.fields && "item_category" in t.fields)
    ensures resp.status == 200 && r.Ok? ==>
      var t := resp.body.json.fields["ticket"];
      r.value == (t.fields["category"], t.fields["sub_category"], t.fields["item_category"])
    ensures resp.status == 200 && resp.body.Unparseable? ==> r == Err(DecodeExit)
  {
    if resp.status != 200 then Ok((JStr(""), JStr(""), JStr("")))
    else match resp.body
      case Unparseable => Err(DecodeExit)
      case Parsed(payload) =>
        match Subscript(payload, "ticket")
        case Err(e) => Err(Uncaught(e))
        case Ok(t) =>
          match (Subscript(t, "category"), Subscript(t, "sub_category"), Subscript(t, "item_category"))
          case (Ok(c), Ok(s), Ok(i)) => Ok((c, s, i))
          case (Err(e), _, _) => Err(Uncaught(e))
          case (_, Err(e), _) => Err(Uncaught(e))
          case (_, _, Err(e)) => Err(Uncaught(e))
  }

  function MakeRecord(id: Json, f: ItemFields, c: (Json, Json, Json)): Record {
    Record(f.date, f.item, c.0, c.1, c.2, f.model, f.building, JStr(Str(id)),
           f.technician, f.asset, f.username, f.description)
  }

  /** The state the ticket loop carries: the records so far, the ids they came from, the
      request log of the run and the function's `data` variable. */
  datatype Acc = Acc(records: seq<Record>, accepted: seq<Json>, sent: seq<Request>, data: Option<Json>)

  datatype Progress = Running(acc: Acc) | Halted(acc: Acc, stop: Stop)

  /** One pass of the ticket loop body, answered by the network: one requested-items
      request, and a ticket-detail request for a replacement. */
  function Step(net: Network, a: Acc, id: Json): (p: Progress)
    ensures p.acc.sent == a.sent + [RequestedItems(id)] ||
            p.acc.sent == a.sent + [RequestedItems(id), TicketDetail(id)]
  {
    var sent := a.sent + [RequestedItems(id)];
    match ExamineItems(net(|a.sent|))
    case Err(stop) => Halted(a.(sent := sent), stop)
    case Ok(Unavailable) => Running(a.(sent := sent))
    case Ok(NoItems) => Running(a.(sent := sent))
    case Ok(NotReplacement(first)) => Running(a.(sent := sent, data := Some(first)))
    case Ok(Replacement(first, fields)) =>
      var sent' := sent + [TicketDetail(id)];
      assert sent' == a.sent + [RequestedItems(id), TicketDetail(id)];
      match Categories(net(|sent|))
      case Err(stop) => Halted(a.(sent := sent', data := Some(first)), stop)
      case Ok(c) => Running(Acc(a.records + [MakeRecord(id, fields, c)], a.accepted + [id], sent', Some(first)))
  }

  /** A pass adds at most one record, for the ticket it examines, and keeps the earlier ones. */
  lemma StepRecords(net: Network, a: Acc, id: Json)
    ensures var p := Step(net, a, id);
      p.Running? ==>
        && a.records <= p.acc.records && a.accepted <= p.acc.accepted
        && |p.acc.records| - |a.records| == |p.acc.accepted| - |a.accepted| <= 1
        && (|p.acc.records| == |a.records| + 1 ==>
              p.acc.accepted[|a.accepted|] == id && p.acc.records[|a.records|].srNumber == JStr(Str(id)))
  {
  }

  /** A ticket adds a record exactly when its requested-items response is accepted and its
      ticket-detail response can be read; the category triple is empty text when the
      ticket-detail status is not 200; a non-200, empty or other-item response adds
      nothing and does not stop the loop. */
  lemma StepAccepts(net: Network, a: Acc, id: Json)
    ensures var p := Step(net, a, id);
      && ((p.Running? && |p.acc.records| == |a.records| + 1) <==>
            Accepts(net(|a.sent|)) && Categories(net(|a.sent| + 1)).Ok?)
      && (p.Running? && |p.acc.records| == |a.records| + 1 && net(|a.sent| + 1).status != 200 ==>
            var r := p.acc.records[|a.records|];
            r.category == JStr("") && r.subCategory == JStr("") && r.itemCategory == JStr(""))
      && (HasNoItems(net(|a.sent|)) || net(|a.sent|).status != 200 || IsOtherItem(net(|a.sent|)) ==>
            p.Running? && p.acc.records == a.records)
    ensures var p := Step(net, a, id);
      var resp := net(|a.sent|);
      resp.status == 200 && !Accepts(resp) && !HasNoItems(resp) && !IsOtherItem(resp) ==>
        && p.Halted? && p.acc.records == a.records
        && (if resp.body.Unparseable? then p.stop == DecodeExit else p.stop.Uncaught?)
  {
    ExamineItemsVerdicts(net(|a.sent|));
  }

  /** The ticket loop over `ids`, as a left fold of Step that stops at the first exit. */
  function Scan(net: Network, ids: seq<Json>, start: Acc): Progress
    decreases |ids|
  {
    if ids == [] then Running(start)
    else
      match Scan(net, ids[..|ids| - 1], start)
      case Halted(a, stop) => Halted(a, stop)
      case Running(a) => Step(net, a, ids[|ids| - 1])
  }

  lemma {:induction false} ScanStep(net: Network, ids: seq<Json>, i: nat, start: Acc)
    requires i < |ids|
    ensures Scan(net, ids[..i + 1], start) ==
      match Scan(net, ids[..i], start)
      case Halted(a, stop) => Halted(a, stop)
      case Running(a) => Step(net, a, ids[i])
  {
    assert ids[..i + 1][..i] == ids[..i];
  }

  lemma ScanStepRunning(net: Network, ids: seq<Json>, i: nat, start: Acc, a: Acc)
    requires i < |ids| && Scan(net, ids[..i], start) == Running(a)
    ensures Scan(net, ids[..i + 1], start) == Step(net, a, ids[i])
  {
    ScanStep(net, ids, i, start);
  }

  /** Once the loop has stopped, later ids change nothing. */
  lemma {:induction false} ScanStaysHalted(net: Network, ids: seq<Json>, i: nat, start: Acc)
    requires i <= |ids| && Scan(net, ids[..i], start).Halted?
    ensures Scan(net, ids, start) == Scan(net, ids[..i], start)
    decreases |ids| - i
  {
    if i < |ids| {
      ScanStep(net, ids, i, start);
      ScanStaysHalted(net, ids, i + 1, start);
    } else {
      assert ids[..i] == ids;
    }
  }

  /** A loop that stopped after i tickets ends as it stopped, its log extended only by
      per-ticket requests. */
  lemma ScanHaltedAt(net: Network, ids: seq<Json>, i: nat, start: Acc)
    requires i <= |ids| && Scan(net, ids[..i], start).Halted?
    ensures var p := Scan(net, ids, start);
      p == Scan(net, ids[..i], start) &&
      start.sent <= p.acc.sent && forall r :: r in p.acc.sent[|start.sent|..] ==> !r.TicketsPage?
  {
    ScanStaysHalted(net, ids, i, start);
    ScanSendsNoPages(net, ids, start);
  }

  /** The ticket loop only extends the request log, and only with per-ticket requests. */
  lemma {:induction false} ScanSendsNoPages(net: Network, ids: seq<Json>, start: Acc)
    ensures var p := Scan(net, ids, start);
      start.sent <= p.acc.sent && forall r :: r in p.acc.sent[|start.sent|..] ==> !r.TicketsPage?
    decreases |ids|
  {
    if ids != [] {
      var init := ids[..|ids| - 1];
      ScanSendsNoPages(net, init, start);
      match Scan(net, init, start)
      case Halted(_, _) =>
      case Running(a) =>
        var p := Step(net, a, ids[|ids| - 1]);
        assert p.acc.sent[|start.sent|..] == a.sent[|start.sent|..] + p.acc.sent[|a.sent|..];
    }
  }

  /** Every record of a page comes from an accepted ticket of that page, in
      acceptance order, and carries `str` of that ticket's id as its SR number. */
  lemma {:induction false} ScanRecordsMatchAccepted(net: Network, ids: seq<Json>, sent0: seq<Request>, data0: Option<Json>)
    ensures var p := Scan(net, ids, Acc([], [], sent0, data0));
      p.Running? ==>
        |p.acc.records| == |p.acc.accepted| <= |ids| &&
        (forall k :: 0 <= k < |p.acc.accepted| ==> p.acc.accepted[k] in ids) &&
        (forall k :: 0 <= k < |p.acc.records| ==> p.acc.records[k].srNumber == JStr(Str(p.acc.accepted[k])))
    decreases |ids|
  {
    var start := Acc([], [], sent0, data0);
    if ids != [] {
      var init := ids[..|ids| - 1];
      ScanRecordsMatchAccepted(net, init, sent0, data0);
      match Scan(net, init, start)
      case Halted(_, _) =>
      case Running(a) =>
        var p := Step(net, a, ids[|ids| - 1]);
        StepRecords(net, a, ids[|ids| - 1]);
        if p.Running? {
          assert forall k :: 0 <= k < |a.accepted| ==> p.acc.accepted[k] == a.accepted[k];
          assert forall k :: 0 <= k < |a.accepted| ==> a.accepted[k] in init;
          assert forall x :: x in init ==> x in ids;
          assert ids[|ids| - 1] in ids;
        }
    }
  }

  /** The tickets a run has accepted, read off its request log: each ticket-detail
      request whose response yields the three categories. Only an accepted requested-items
      response leads to a ticket-detail request, and a detail that cannot be read ends the
      run, so this is the order in which records are made. */
  function AcceptedIds(net: Network, log: seq<Request>): (ids: seq<Json>)
    ensures |ids| <= |log|
  {
    if log == [] then []
    else
      var n := |log| - 1;
      AcceptedIds(net, log[..n]) +
        (if log[n].TicketDetail? && Categories(net(n)).Ok? then [log[n].ticket] else [])
  }

  lemma AcceptedIdsSnoc(net: Network, log: seq<Request>, r: Request)
    ensures AcceptedIds(net, log + [r]) ==
      AcceptedIds(net, log) + (if r.TicketDetail? && Categories(net(|log|)).Ok? then [r.ticket] else [])
  {
    var s := log + [r];
    assert s[..|s| - 1] == log && s[|s| - 1] == r;
  }

  /** A ticket that is not a replacement adds one request and accepts nothing. */
  lemma StepWithoutDetail(net: Network, a: Acc, id: Json)
    requires var v := ExamineItems(net(|a.sent|)); !(v.Ok? && v.value.Replacement?)
    ensures var p := Step(net, a, id);
      p.acc.accepted == a.accepted && p.acc.sent == a.sent + [RequestedItems(id)]
  {
  }

  /** A replacement adds the ticket-detail request and is accepted when that detail can
      be read. */
  lemma StepWithDetail(net: Network, a: Acc, id: Json)
    requires var v := ExamineItems(net(|a.sent|)); v.Ok? && v.value.Replacement?
    ensures var p := Step(net, a, id);
      && p.acc.sent == a.sent + [RequestedItems(id)] + [TicketDetail(id)]
      && (Categories(net(|a.sent| + 1)).Ok? ==> p.Running? && p.acc.accepted == a.accepted + [id])
      && (!Categories(net(|a.sent| + 1)).Ok? ==> p.acc.accepted == a.accepted)
  {
  }

  /** A pass accepts its ticket exactly when the log gains an accepted ticket-detail
      request for it; a pass that stops accepts nothing. */
  lemma StepAcceptedIds(net: Network, a: Acc, id: Json)
    ensures var p := Step(net, a, id);
      || (p.acc.accepted == a.accepted && AcceptedIds(net, p.acc.sent) == AcceptedIds(net, a.sent))
      || (p.Running? && p.acc.accepted == a.accepted + [id] &&
          AcceptedIds(net, p.acc.sent) == AcceptedIds(net, a.sent) + [id])
  {
    var sent := a.sent + [RequestedItems(id)];
    AcceptedIdsSnoc(net, a.sent, RequestedItems(id));
    var v := ExamineItems(net(|a.sent|));
    if v.Ok? && v.value.Replacement? {
      StepWithDetail(net, a, id);
      AcceptedIdsSnoc(net, sent, TicketDetail(id));
    } else {
      StepWithoutDetail(net, a, id);
    }
  }

  /** The ids a page accepts are exactly the accepted ticket-detail requests it adds to
      the log, in order, whether or not the loop runs to the end. */
  lemma {:induction false} ScanAcceptedIds(net: Network, ids: seq<Json>, sent0: seq<Request>, data0: Option<Json>)
    ensures var p := Scan(net, ids, Acc([], [], sent0, data0));
      AcceptedIds(net, p.acc.sent) == AcceptedIds(net, sent0) + p.acc.accepted
    decreases |ids|
  {
    var start := Acc([], [], sent0, data0);
    if ids == [] {
      assert AcceptedIds(net, sent0) + [] == AcceptedIds(net, sent0);
    } else {
      var i := |ids| - 1;
      ScanAcceptedIds(net, ids[..i], sent0, data0);
      ScanStep(net, ids, i, start);
      assert ids[..i + 1] == ids;
      var q := Scan(net, ids[..i], start);
      if q.Running? {
        StepAcceptedIds(net, q.acc, ids[i]);
      }
    }
  }

  /** The twelve lists of lines 172-184, in the order they are declared. */
  datatype Columns = Columns(
    assetNumbers: seq<Json>, problemDescriptions: seq<Json>, building: seq<Json>,
    userName: seq<Json>, technician: seq<Json>, srNumber: seq<Json>,
    replacementDate: seq<Json>, item: seq<Json>, itemModel: seq<Json>,
    category: seq<Json>, subCategory: seq<Json>, itemCategory: seq<Json>)
  {
    /** All twelve lists have the same length. */
    predicate Aligned() {
      |assetNumbers| == |srNumber| && |problemDescriptions| == |srNumber| &&
      |building| == |srNumber| && |userName| == |srNumber| && |technician| == |srNumber| &&
      |replacementDate| == |srNumber| && |item| == |srNumber| && |itemModel| == |srNumber| &&
      |category| == |srNumber| && |subCategory| == |srNumber| && |itemCategory| == |srNumber|
    }

    /** The number of tuples `zip` yields: the length of the shortest list. */
    function ZipLength(): (n: nat)
      ensures n <= |assetNumbers| && n <= |problemDescriptions| && n <= |building| &&
              n <= |userName| && n <= |technician| && n <= |srNumber| &&
              n <= |replacementDate| && n <= |item| && n <= |itemModel| &&
              n <= |category| && n <= |subCategory| && n <= |itemCategory|
      ensures Aligned() ==> n == |srNumber|
      ensures forall k: nat :: k < n ==> HasIndex(k)
    {
      Min(|assetNumbers|, Min(|problemDescriptions|, Min(|building|, Min(|userName|,
      Min(|technician|, Min(|srNumber|, Min(|replacementDate|, Min(|item|,
      Min(|itemModel|, Min(|category|, Min(|subCategory|, |itemCategory|)))))))))))
    }

    /** `zip` of the twelve lists, in the order of line 254, as records. */
    function Zip(): (z: seq<Record>)
      ensures |z| == ZipLength() && forall k :: 0 <= k < |z| ==> z[k] == At(k)
    {
      seq(ZipLength(), k requires 0 <= k < ZipLength() => At(k))
    }

    /** Every list has a k-th element. */
    predicate HasIndex(k: nat) {
      k < |assetNumbers| && k < |problemDescriptions| && k < |building| &&
      k < |userName| && k < |technician| && k < |srNumber| &&
      k < |replacementDate| && k < |item| && k < |itemModel| &&
      k < |category| && k < |subCategory| && k < |itemCategory|
    }

    /** The k-th tuple of the zip, as a record. */
    function At(k: nat): Record
      requires HasIndex(k)
    {
      Record(replacementDate[k], item[k], category[k], subCategory[k], itemCategory[k],
             itemModel[k], building[k], srNumber[k], technician[k], assetNumbers[k],
             userName[k], problemDescriptions[k])
    }
  }

  function Min(a: nat, b: nat): nat {
    if a < b then a else b
  }

  /** The lists hold exactly the given records, one tuple per record. */
  predicate Holds(c: Columns, records: seq<Record>) {
    c.Aligned() && |c.srNumber| == |records| &&
    forall k :: 0 <= k < |records| ==> c.At(k) == records[k]
  }

  lemma HoldsAppend(c: Columns, records: seq<Record>, r: Record)
    requires Holds(c, records)
    ensures Holds(Columns(
      c.assetNumbers + [r.asset], c.problemDescriptions + [r.description], c.building + [r.building],
      c.userName + [r.username], c.technician + [r.technician], c.srNumber + [r.srNumber],
      c.replacementDate + [r.date], c.item + [r.item], c.itemModel + [r.model],
      c.category + [r.category], c.subCategory + [r.subCategory], c.itemCategory + [r.itemCategory]),
      records + [r])
  {
  }

  /** Lines 194-221 for one ticket: the requested-items request and, for a replacement,
      the ticket-detail request. It returns the extended log, `data`, the item fields and
      category triple of an accepted ticket, and the reason when the run stops here. */
  method VisitTicket(net: Network, sent0: seq<Request>, data0: Option<Json>, id: Json,
                     ghost records: seq<Record>, ghost accepted: seq<Json>)
    returns (sent: seq<Request>, data: Option<Json>, found: Option<(ItemFields, (Json, Json, Json))>, stop: Option<Stop>)
    ensures var p := Step(net, Acc(records, accepted, sent0, data0), id);
      && sent == p.acc.sent && (stop.None? <==> p.Running?) && (p.Halted? ==> stop == Some(p.stop))
      && (stop.None? ==> data == p.acc.data)
      && (stop.None? && found.None? ==> p.acc.records == records && p.acc.accepted == accepted)
      && (stop.None? && found.Some? ==>
            p.acc.records == records + [MakeRecord(id, found.value.0, found.value.1)] &&
            p.acc.accepted == accepted + [id])
  {
    var response := net(|sent0|);
    sent, data, found, stop := sent0 + [RequestedItems(id)], data0, None, None;
    var verdict := ExamineItems(response);
    if verdict.Err? {
      stop := Some(verdict.error);
      return;
    }
    match verdict.value {
      case Unavailable =>
      case NoItems =>
      case NotReplacement(first) =>
        data := Some(first);
      case Replacement(first, f) =>
        data := Some(first);
        var ticketDataResponse := net(|sent|);
        sent := sent + [TicketDetail(id)];
        var triple := Categories(ticketDataResponse);
        if triple.Err? {
          stop := Some(triple.error);
          return;
        }
        found := Some((f, triple.value));
    }
  }

  /** Lines 189-238: the ticket loop filling the twelve lists. It returns the lists, the
      extended request log and `data` when the loop finishes, and the reason when the run
      stops inside it. The item fields of a replacement are appended before its
      ticket-detail request in the source; when that request ends the run the lists are
      never read, so appending them with the categories changes nothing. */
  method ExtractPage(net: Network, ids: seq<Json>, sent0: seq<Request>, data0: Option<Json>)
    returns (cols: Columns, sent: seq<Request>, data: Option<Json>, stop: Option<Stop>)
    ensures var p := Scan(net, ids, Acc([], [], sent0, data0));
      sent == p.acc.sent && (stop.None? <==> p.Running?) && (p.Halted? ==> stop == Some(p.stop))
    ensures var p := Scan(net, ids, Acc([], [], sent0, data0));
      stop.None? ==> data == p.acc.data && Holds(cols, p.acc.records)
    ensures sent0 <= sent && forall r :: r in sent[|sent0|..] ==> !r.TicketsPage?
  {
    var assetNumbers, problemDescriptions, building, userName: seq<Json> := [], [], [], [];
    var technician, srNumber, replacementDate, item, itemModel: seq<Json> := [], [], [], [], [];
    var category, subCategory, itemCategory: seq<Json> := [], [], [];
    sent, data, stop := sent0, data0, None;
    cols := Columns([], [], [], [], [], [], [], [], [], [], [], []);
    ghost var records: seq<Record> := [];
    ghost var accepted: seq<Json> := [];
    ghost var start := Acc([], [], sent0, data0);
    assert ids[..0] == [];
    var i := 0;
    while i < |ids|
      invariant 0 <= i <= |ids| && stop.None?
      invariant Scan(net, ids[..i], start) == Running(Acc(records, accepted, sent, data))
      invariant Holds(Columns(assetNumbers, problemDescriptions, building, userName, technician, srNumber,
                              replacementDate, item, itemModel, category, subCategory, itemCategory), records)
    {
      var ticketNumber := ids[i];
      ScanStepRunning(net, ids, i, start, Acc(records, accepted, sent, data));
      var found;
      sent, data, found, stop := VisitTicket(net, sent, data, ticketNumber, records, accepted);
      if stop.Some? {
        ScanHaltedAt(net, ids, i + 1, start);
        return;
      }
      if found.Some? {
        var (f, triple) := found.value;
        ghost var prev := Columns(assetNumbers, problemDescriptions, building, userName, technician, srNumber,
                                 replacementDate, item, itemModel, category, subCategory, itemCategory);
        assetNumbers := assetNumbers + [f.asset];
        problemDescriptions := problemDescriptions + [f.description];
        building := building + [f.building];
        userName := userName + [f.username];
        technician := technician + [f.technician];
        srNumber := srNumber + [JStr(Str(ticketNumber))];
        replacementDate := replacementDate + [f.date];
        item := item + [f.item];
        itemModel := itemModel + [f.model];
        category := category + [triple.0];
        subCategory := subCategory + [triple.1];
        itemCategory := itemCategory + [triple.2];
        ghost var rec := MakeRecord(ticketNumber, f, triple);
        HoldsAppend(prev, records, rec);
        records := records + [rec];
        accepted := accepted + [ticketNumber];
      }
      i := i + 1;
    }
    assert ids[..i] == ids;
    ScanSendsNoPages(net, ids, start);
    cols := Columns(assetNumbers, problemDescriptions, building, userName, technician, srNumber,
                    replacementDate, item, itemModel, category, subCategory, itemCategory);
  }
}
